=== FILE: README.md ===
# QuiQuiz multiplayer core in Dafny

A model of the multiplayer session coordinator of QuiQuiz (`server.js`), a
real-time quiz game in which players join six-character rooms, answer timed
questions, and are scored and ranked live. The model has two layers:

- **Judging and scoring.** These functions are pure:
  - `normalize`: lower-case, NFD, strip marks, `-`/`_` to space, collapse whitespace, trim.
  - `levenshtein`: the full-matrix dynamic programme, written as a Dafny method with loop invariants. It is proved equal to a recursive edit-distance definition.
  - `checkAnswer`: exact match after normalisation, then no fuzziness for numeric answers, then a length-based tolerance.
  - `calculatePoints`: 100 base points plus a speed bonus of up to 50.
  - `getRankings`: a stable descending sort by score.
  - `generateRoomCode`.
- **The room state machine.** Node runs each socket handler and timer callback to completion. Each one is therefore an atomic transition from a room registry (`map<string, Room>`) to a new registry, plus an outcome:
  - `Done(timeouts)`: the handler finished, and these are the `setTimeout` callbacks it scheduled.
  - `Ignored`: the handler returned early without a reply.
  - `Refused(reason)`: the handler answered with an `error` message.
  - `Crashed`: the handler threw an uncaught TypeError.

  The registry is modelled as follows:
  - Players are an insertion-ordered sequence with unique socket ids. This mirrors a JavaScript `Map`.
  - The answered set is a `set`.
  - The per-question `setInterval` is `timer: Option<int>`, holding the seconds left.
  - The clock `now` is a parameter.
  - Every socket message and timer callback is an `Event`.
  - `Server.ApplyAsWritten` runs each event through the handlers as `server.js` writes them.
  - `Server.Apply` is the corrected server. It runs the corrected `submitAnswer` and `startGame` (see "## Findings") and the same handlers otherwise.

Module layout:

| File | Module | Contents |
|---|---|---|
| `wrappers.dfy` | `Wrappers` | `Option` |
| `text.dfy` | `Text` | JavaScript `\s`, `trim`, ASCII `toUpperCase` |
| `normalize.dfy` | `Normalization` | `normalize` |
| `normalize_laws.dfy` | `NormalizationLaws` | what `normalize` keeps and what it ignores |
| `edit_distance.dfy` | `EditDistance` | `levenshtein` |
| `matcher.dfy` | `Matcher` | `checkAnswer` |
| `scoring.dfy` | `Scoring` | `calculatePoints` |
| `rankings.dfy` | `Rankings` | `getRankings` |
| `room_code.dfy` | `RoomCode` | `generateRoomCode` |
| `room_types.dfy` | `RoomModel` | rooms, players, the `Map` operations, the registry invariant |
| `rooms.dfy` | `Rooms` | the handlers |
| `server.dfy` | `Server` | the event dispatchers, as written and corrected |
| `findings.dfy` | `Findings` | `submitAnswer` and `startGame` exactly as written |

The model follows the code on these points:

- `updateSettings` (server.js:258-264) does not check the status, so the host can change the settings during a game.
- `startGame` (server.js:267-298) does not check the status, so a playing or finished game can be started again.
- The cleanup timer of `endGame` (server.js:508-513) deletes the room after 5 minutes whatever happened in it since.
- A non-host's `updateSettings` (server.js:260) returns without any reply.
- `calculatePoints` (server.js:145) bounds the time ratio only from above (`Math.min(ratio, 1)`), so a negative response time would earn more than 50 bonus points.
- `joinRoom` (server.js:220-226) replaces an existing entry with a non-host player, so a host who joins their own room again loses the host flag (`Rooms.HostRejoinLosesFlag`).
- `handlePlayerLeave` (server.js:371-410) does not remove the leaver from `answeredThisQuestion`.

## Model

| member | source | states |
|---|---|---|
| Text.Trim | server.js:95 | the result is the part of the input between its leading and trailing JavaScript whitespace; only whitespace is cut and the result neither starts nor ends with whitespace |
| Text.ToUpper | server.js:211 | upper-casing keeps the length and maps each ASCII letter to its capital, leaving other code points alone |
| Normalization.ToLower | server.js:90 | the length is kept and every code point is lower-cased; no ASCII or Latin-1 capital survives |
| Normalization.DecomposeShape | server.js:91 | canonical decomposition either leaves a code point alone or splits it into an ASCII base letter followed by one combining mark |
| Normalization.NfdShape | server.js:91 | after decomposition every code point is a mark, an ASCII lower-case letter, or an undecomposable code point of the input; input with nothing to decompose is unchanged |
| Normalization.StripMarksMembers | server.js:92 | a code point is in the result exactly when it is in the input and is not in U+0300..U+036F; input without marks is unchanged |
| Normalization.MapSeparators | server.js:93 | position by position, `-` and `_` become a space and every other code point is kept |
| Normalization.CollapseMembers | server.js:94 | the result holds only spaces and code points of the input that are not whitespace |
| Normalization.CollapseSpacing | server.js:94 | the result has no two adjacent spaces, is empty exactly when the input is, and starts with a space exactly when the input starts with whitespace |
| Normalization.CollapseFixes | server.js:94 | a string with only plain spaces and no two in a row is unchanged by collapsing |
| Normalization.Normalize | server.js:88-96 | the output holds no `-`, `_`, combining mark or capital, does not start or end with a space, and has no two adjacent spaces |
| NormalizationLaws.CollapseKeepsWords | server.js:94 | collapsing keeps every code point that is not whitespace, in order; only whitespace changes |
| NormalizationLaws.CollapseRun | server.js:94 | a leading whitespace run of any length becomes one space |
| NormalizationLaws.CollapseSplit | server.js:94 | cut after a code point that is not whitespace, the two halves collapse separately |
| NormalizationLaws.CollapseRunsToOneSpace | server.js:94 | between two words, a whitespace run of any length and kind becomes exactly one space |
| NormalizationLaws.NfdAppend | server.js:91 | decomposition maps each code point to its own decomposition, in order |
| NormalizationLaws.StripMarksAppend | server.js:92 | mark removal drops each mark and keeps every other code point, in order |
| NormalizationLaws.PrepareAppend | server.js:90-93 | the four stages before the collapse work code point by code point |
| NormalizationLaws.FoldAbsorbed | server.js:90-93 | those stages treat a code point as its lower-case, unaccented form, with `-` and `_` as a space |
| NormalizationLaws.PrepareFolds | server.js:90-93 | two strings that agree code point by code point once folded give the same result before the collapse |
| NormalizationLaws.NormalizeInsensitive | server.js:88-96 | case, Latin-1 accents and the choice between `-`, `_` and a space do not change the normal form |
| NormalizationLaws.NormalizeSaintEtienne | server.js:88-96 | "Saint-Étienne" normalises to "saint etienne" |
| Normalization.NormalizeFixesNormalized | server.js:88-96 | every string of that shape is a fixed point of `normalize` |
| Normalization.NormalizeIdempotent | server.js:88-96 | normalising twice is normalising once |
| Normalization.NormalizeAfterLower | server.js:90 | lower-casing before normalising changes nothing |
| Normalization.NormalizePlainWord | server.js:88-96 | a word of ASCII letters and digits normalises to its lower-case form |
| EditDistance.PrefixDistUpper | server.js:99-117 | the distance between two prefixes is at most the longer prefix length |
| EditDistance.PrefixDistLower | server.js:99-117 | the distance is at least the difference of the lengths |
| EditDistance.DropLastOfSecond | server.js:108-112 | two cells adjacent along a column differ by at most 1 |
| EditDistance.DropLastOfFirst | server.js:108-112 | two cells adjacent along a row differ by at most 1 |
| EditDistance.EqualLastSkipsMin | server.js:105-106 | when the last code points agree, the diagonal is never worse than the other two moves, so taking it without a `min` gives the distance |
| EditDistance.PrefixDistZeroIff | server.js:99-117 | the prefix distance is 0 exactly when the prefixes are equal |
| EditDistance.DistZeroIff | server.js:99-117 | the distance is 0 exactly when the strings are equal |
| EditDistance.PrefixDistSymmetric | server.js:99-117 | the prefix distance is symmetric |
| EditDistance.DistFacts | server.js:99-117 | d(a,a) = 0, d("",b) = \|b\|, d(a,b) <= max(\|a\|,\|b\|), d(a,b) = d(b,a) |
| EditDistance.FillRow | server.js:103-115 | after filling row i, every cell of rows 0..i holds the edit distance of the corresponding prefixes, and the later rows' first column is untouched |
| EditDistance.Levenshtein | server.js:99-117 | the matrix algorithm returns the unit-cost insert/delete/substitute edit distance |
| Matcher.ToleranceBounds | server.js:132-135 | at least one edit is tolerated, and from length 10 never more than a fifth of the length |
| Matcher.ToleranceNotMonotone | server.js:133-135 | 8 code points tolerate two edits but 9 only one |
| Matcher.CheckAnswer | server.js:120-138 | accepts whenever the normal forms are equal; for an all-digit expected answer accepts only then; otherwise accepts exactly when the edit distance of the normal forms is within the tolerance for the longer one |
| Matcher.CheckAnswerReflexive | server.js:121-124 | every answer is accepted against itself |
| Matcher.OneEditAccepted | server.js:129-137 | a non-numeric answer one edit away is accepted at every length |
| Matcher.InsertOneCostsOne | server.js:99-117 | inserting one code point anywhere costs at most one edit |
| Matcher.MissingLetterAccepted | server.js:129-137 | an answer missing one code point of the expected one is accepted ("Lyn" for "Lyon", "Londre" for "Londres") |
| Matcher.ShortAnswerTwoEditsRejected | server.js:132-133 | with both normal forms at most 4 long, two edits are refused |
| Matcher.MidLengthTwoEditsAccepted | server.js:134 | with the longer normal form 5 to 8 long, two edits are accepted |
| Matcher.DigitsAreNormalized | server.js:88-96 | ASCII digits are unchanged by normalisation |
| Matcher.DigitsAreTrimmed | server.js:126 | `trim` leaves a non-empty string of digits alone |
| Matcher.DifferentNumbersRejected | server.js:126-127 | two different digit strings never match, even one digit apart ("45" for "44") |
| Scoring.BonusRounds | server.js:145-146 | the integer bonus is 50·(tl − min(rt, tl))/tl rounded to the nearest integer, halves up |
| Scoring.BonusBounds | server.js:145-146 | the bonus is never negative, and never above 50 for a non-negative response time |
| Scoring.BonusEnds | server.js:145-146 | the bonus is 0 at or after the limit and 50 for an instant answer |
| Scoring.CalculatePoints | server.js:141-148 | a wrong answer earns 0; a right one earns at least 100, at most 150 for a non-negative response time, exactly 100 at or after the limit and 150 at time 0, the bonus being the rounded linear decay |
| Scoring.PointsNonIncreasing | server.js:145-147 | a later correct answer never earns more than an earlier one |
| Scoring.TwoSecondsOfTen | server.js:141-148 | 2000 ms out of 10000 earns 140 |
| Rankings.SortPermutes | server.js:154 | the sort is a permutation of the players |
| Rankings.SortSorted | server.js:154 | the sort orders by non-increasing score |
| Rankings.SortStable | server.js:154 | the players of each score keep their join order |
| Rankings.StableSortUnique | server.js:154 | two score-sorted lists with the same players of every score in the same order are equal, so the stable sort is determined |
| Rankings.GetRankings | server.js:151-161 | one entry per player, ranks 1..n in order, scores non-increasing |
| Rankings.RankingsListPlayers | server.js:152-159 | each entry carries the id, name and score of the sorted player at its position; the sorted players are a permutation and keep join order among equal scores |
| Rankings.TieSortsInJoinOrder | server.js:153-154 | scores 30, 80, 80, 10 in join order sort as the first 80, the second 80, 30, 10 |
| Rankings.TieKeepsJoinOrder | server.js:151-161 | the same players are ranked 1 to 4 in that order |
| RoomCode.AlphabetChars | server.js:56 | the alphabet has 32 symbols, all upper-case letters or digits other than I, O, 0 and 1 |
| RoomCode.Spell | server.js:59-62 | one code point per draw, each from that alphabet |
| RoomCode.GenerateRoomCode | server.js:55-65 | a code returned is six symbols from the alphabet and not in use |
| RoomCode.GenerateNoneIffAllTaken | server.js:58-63 | no code is found exactly when every attempt the draws allow is already in use |
| RoomCode.GenerateFindsFirstFree | server.js:58-64 | the code found is the first attempt not in use |
| RoomCode.RoomCodeCaseInsensitive | server.js:211 | a room code and its lower-case spelling both upper-case to the code |
| RoomModel.IndexOf | server.js:305 | finds the first player with the id, or reports that none has it |
| RoomModel.IndexOfUnique | server.js:305 | with unique ids the player found is the one with that id |
| RoomModel.SetPlayer | server.js:220-226 | `Map.set`: an existing entry is replaced where it stands, a new one is appended, other entries are kept, and ids stay unique |
| RoomModel.RemovePlayer | server.js:378 | `Map.delete`: exactly the entry with that id leaves, the others stay, and ids stay unique |
| RoomModel.TotalPointsAppend | server.js:318-327 | appending a record adds its points to the log total |
| RoomModel.FileRoom | server.js:202 | filing a valid room under its own code keeps the registry valid |
| Rooms.InitialQuestionCount | server.js:180 | `questionCount \|\| 10`: absent or 0 gives 10, anything else is kept |
| Rooms.CreateRoom | server.js:171-207 | a waiting room under the new code with the sender as sole player and host, default themes only when none are given, the given question count or 10 when it is missing or zero, 10 s per question, a game with no questions at index 0 and nothing answered, no other room touched, registry validity kept |
| Rooms.AdmitKeepsValid | server.js:220-226 | admitting a fresh non-host player keeps a room valid |
| Rooms.JoinRoom | server.js:210-229 | the code is looked up upper-cased; missing room and non-waiting room are refused with their messages; otherwise only the player list changes: an entry under the same socket is replaced in place by a non-host with score 0 and no answers, or that player is appended, everyone else stays in order, and the room grows exactly when the socket was not in it |
| Rooms.HostRejoinLosesFlag | server.js:220-226 | a host re-joining their own room is replaced by a plain player, leaving no one flagged as host |
| Rooms.Merge | server.js:262 | each key present in the patch wins; absent keys keep the room's value |
| Rooms.MergeLaws | server.js:262 | spreading a patch twice is spreading it once; an empty patch changes nothing |
| Rooms.UpdateSettings | server.js:258-264 | only the host's message changes the room, and only its settings; every other message is ignored |
| Rooms.ResetScores | server.js:284-287 | every player keeps their identity with score 0 and an empty log |
| Rooms.StartGame | server.js:267-298 | non-host refused, fewer than 2 players refused, no questions refused; otherwise playing from question 0 with scores reset, the first question 3 s later, no other room touched |
| Rooms.Grade | server.js:313-327 | the record names the current question, the given answer and the expected one; correctness is `checkAnswer`; points are 0 when wrong, at least 100 when right, at most 150 for a non-negative response time; the points are exactly `calculatePoints` of the correctness, the response time and `timePerQuestion * 1000` |
| Rooms.Judge | server.js:313-316 | the record of an answer to the open question carries its index and the time since the question was sent |
| Rooms.Credit | server.js:318-327 | only the answering player changes: one record is appended and its points are added; unique ids and score/log agreement are kept |
| Rooms.Accept | server.js:311-349 | the sender joins the answered set, their record is logged and scored, no one else changes, and the interval is cleared exactly when every player still in the room has answered |
| Rooms.AcceptKeepsValid | server.js:318-327 | taking an answer keeps a room valid |
| Rooms.SubmitAnswer | server.js:301-350 | never throws; ignored for a missing room, a non-playing room, a non-player, a second answer or a question not open; otherwise the answer is taken: the room becomes `Accept` of the judged record and the early end is scheduled exactly when the interval was cleared |
| Rooms.SubmitAnswerKeepsValid | server.js:301-350 | an answer keeps the registry valid |
| Rooms.SubmitAnswerWaitsForOthers | server.js:346-349 | while another player of the room has not answered, an answer schedules nothing |
| Rooms.SubmitAnswerLastEnds | server.js:346-349 | the last player to answer ends the question 500 ms later |
| Rooms.RemoveAt | server.js:378 | with unique ids, removing a player closes the gap at their position |
| Rooms.DepartOrder | server.js:378-387 | the room disappears exactly when the leaver was its last player; otherwise the others keep their order and nothing but players and host changes |
| Rooms.DepartHost | server.js:389-394 | a departing host is succeeded by the earliest-joined remaining player, who is flagged host; any other departure keeps the host |
| Rooms.DepartValid | server.js:371-399 | a departure keeps a room valid and removes the leaver |
| Rooms.DepartInRegistry | server.js:371-399 | the same for a room of a valid registry, which is filed under its own code |
| Rooms.HandlePlayerLeave | server.js:371-410 | ignored for a missing room or a non-member; otherwise only that room changes, and it is deleted exactly when the leaver was its last player |
| Rooms.Disconnect | server.js:358-367 | rooms without the socket are untouched, no room is created, afterwards the socket is in no room, and a room disappears exactly when the socket was its only player |
| Rooms.DisconnectLoopSpec | server.js:362-366 | visiting distinct codes applies one departure to each listed room and leaves the others alone |
| Rooms.DisconnectInAnyOrder | server.js:362-366 | the order `forEach` visits the rooms in does not change the result |
| Rooms.SendNextQuestion | server.js:413-440 | ignored unless playing; throws exactly when the index is past the end, having stamped the start and emptied the answered set; otherwise opens the current question at `now` with an empty answered set and a full countdown |
| Rooms.MarkUnanswered | server.js:450-462 | players outside the answered set get exactly the given record appended; the others are unchanged |
| Rooms.MarkUnansweredValid | server.js:450-462 | appending 0-point records keeps a room valid |
| Rooms.EndQuestion | server.js:443-479 | ignored for a missing room; throws exactly when the index is past the end; otherwise it completes and every player who did not answer gets one 0-point incorrect record for the current question, no score changes, the index rises by 1, and the end of the game or the next question is scheduled 2 s later |
| Rooms.EndQuestionRecordsEveryone | server.js:449-462 | after the question ends, every player's last record is for that question, with at most one record added and the score unchanged |
| Rooms.Tick | server.js:431-439 | a tick counts down; the last one clears the interval and ends the question |
| Rooms.TicksCountDown | server.js:429-439 | a question with n seconds ends on the n-th tick and not before |
| Rooms.EndGame | server.js:482-514 | the room is marked finished and its deletion is scheduled 5 minutes later |
| Rooms.Cleanup | server.js:508-513 | whatever room holds the code is deleted |
| Server.ApplyKeepsValid | server.js:167-368 | in the corrected server, every handler keeps the registry valid: rooms filed under their codes, never empty, unique ids, host flags on the host only, scores equal to logged points, index within the list |
| Server.RunKeepsValid | server.js:167-368 | in the corrected server, validity holds after any sequence of messages and timer callbacks |
| Server.ApplyTouchesOnlyTarget | server.js:167-368 | in the corrected server, a message or callback addressed to one room leaves every other room as it was |
| Server.DisconnectTouchesOnlyOwnRooms | server.js:362-366 | a disconnect leaves the rooms without the socket alone |
| Server.CrashesOnlyPastEnd | server.js:413-447 | in the corrected server, only `sendNextQuestion` and `endQuestion`, including through the last tick, can throw, and only with the index past the end of the list |
| Server.ApplyAsWrittenAgrees | server.js:167-368 | the handlers as written agree with the corrected server except on a start without questions, an answer while no question is open, and an answer after a player who answered has left |
| Server.ApplyAsWrittenKeepsValid | server.js:167-368 | every handler as written keeps the registry valid |
| Server.RunAsWrittenKeepsValid | server.js:167-368 | validity holds after any sequence of events run through the handlers as written |
| Server.ApplyAsWrittenTouchesOnlyTarget | server.js:167-368 | a message or callback as written addressed to one room leaves every other room as it was |
| Server.AsWrittenCrashesOnlyPastEnd | server.js:301-447 | as written, `sendNextQuestion`, `endQuestion` (also through the last tick) and `submitAnswer` from a player who has not answered throw, each exactly when the index is past the end of the list |
| Findings.JudgeAsWritten | server.js:313-316 | the record `submitAnswer` as written builds: the question the index points at, with a `null` start read as 0 |
| Findings.JudgeAgreesWhileOpen | server.js:313-316 | while a question is open it is the corrected record |
| Findings.AcceptAsWritten | server.js:311-349 | credits the player as the corrected transition does, but clears the interval when the answered set is as large as the room |
| Findings.AcceptAsWrittenKeepsValid | server.js:318-327 | crediting as written keeps a room valid |
| Findings.IdsCount | server.js:346 | unique ids are as many as the players |
| Findings.SizeTestIffAllAnswered | server.js:346 | while the answered set holds only current players, the size test means every player has answered |
| Findings.AcceptAgrees | server.js:346-349 | in that case the as-written and corrected crediting agree |
| Findings.SubmitAnswerAsWritten | server.js:301-350 | `submitAnswer` as written: same early returns, throws exactly when the index is past the end with the sender already added to the answered set, otherwise always takes the answer, logs the record and schedules the early end by the size test |
| Findings.SubmitAnswerAsWrittenKeepsValid | server.js:301-350 | `submitAnswer` as written keeps the registry valid |
| Findings.AsWrittenAgreesWhileOpen | server.js:301-350 | the code as written and the corrected transition agree while a question is open and no leaver is in the answered set |
| Findings.LateSubmitCrashes | server.js:313-315 | after the last question ends, a player who had not answered makes `submitAnswer` throw; the corrected transition ignores it |
| Findings.GapSubmitScoredAgainstNextQuestion | server.js:313-316 | between two questions, a late answer is judged against the next question with the previous start time; the corrected transition ignores it |
| Findings.AsWrittenLogsAnswer | server.js:311-327 | an answer taken by the code as written is appended to the sender's log |
| Findings.CountdownSubmitAnswersTwice | server.js:313-314 | an answer during the countdown is timed from 0, and the same player answers question 0 again once it is sent; the corrected transition ignores the first |
| Findings.FirstOfThreeLeaves | server.js:378 | when the first of three players leaves, the other two stay in order and the game is untouched |
| Findings.AsWrittenCountsLeaver | server.js:346 | with a leaver in the answered set, the code as written ends the question on one of two players' answer |
| Findings.CorrectedIgnoresLeaver | server.js:346 | the corrected transition waits for the other player |
| Findings.LeaverEndsQuestionEarly | server.js:346-349 | three players, the first answers and leaves, the second answers: the code as written ends the question before the third answers, and the corrected transition does not |
| Findings.StartGameAsWritten | server.js:267-298 | `startGame` as written agrees with the corrected one on every input the corrected one does not refuse for an empty list; for that input it starts the game |
| Findings.StartGameAsWrittenEmpty | server.js:267-298 | on an empty list, `startGame` as written does what the corrected one does for any one-question list, refusals, score reset and untouched rooms included, and then holds the empty list |
| Findings.EmptyQuizCrashes | server.js:417-424 | a game started without questions throws when the countdown ends; the corrected start refuses it |
| Findings.StartedGameOpensFirstQuestion | server.js:295-297 | after the corrected start, the scheduled `sendNextQuestion` opens question 0 |

## Left out

- Transport: the `emit`, `join` and `leave` calls, `console.log`, Express and CORS setup, the HTTP routes (server.js:520-572) and `server.listen`. They move data and do not decide anything. The answer check route is a thin wrapper over `checkAnswer`.
- Question loading: the data files (server.js:44-46) and `getQuestionsForThemes` (68-85) shuffle with `Math.random`. The drawn question list is a parameter of `StartGame`. An empty theme list, which `createRoom` keeps, or a question count of 0 set through `updateSettings`, is how that list comes out empty.
- Room code randomness: the random draws of `generateRoomCode` are an explicit finite input. The loop terminates only with probability 1. When the draws run out before a free code comes up, the model gives `None` and `Server.Apply` drops the message.
- Timers: `setTimeout` and `setInterval` are not run. A handler returns the callbacks it schedules, and a callback fires as a separate event.
  - `setInterval` is one `timer` per room. The source can end up with two intervals for one room: after a restarted game, or after a gap submit (server.js:313-316) whose early end (346-348) schedules a second `endQuestion`, so `sendNextQuestion` runs twice (472-476) and the first interval, orphaned, keeps calling `endQuestion` every second (431-437). The model keeps only the latest.
- Crash semantics: a thrown TypeError is the outcome `Crashed`. The registry keeps what the source changed before the read that throws: `sendNextQuestion` has already stamped the start and emptied the answered set (server.js:418-419), and the last tick has already cleared the interval (436) before `endQuestion` throws. `submitAnswer` has already added the sender to the answered set (311) when it reads `question.answer` (315). `endQuestion` throws before it changes anything: it reads `question.question` for the first player it would log, or `question.answer` at 466 when there is none. What happens to the process after the throw is not modelled.
- Unicode: lower-casing and NFD are modelled for ASCII and the Latin-1 Supplement only. Lengths count code points, not UTF-16 units. `toUpperCase` is modelled on ASCII only.
- Floating point: `Math.round(50 * (1 - Math.min(rt / tl, 1)))` is computed exactly on integers, and `Math.floor(maxLength * 0.2)` is `maxLength / 5`.
- Payload types:
  - Payloads of the wrong type are not modelled (a missing `settings` object, a non-string answer or code).
  - A settings key present with the value `undefined` is not modelled.
  - `timePerQuestion` is a positive integer (`RoomModel.Seconds`). A zero, negative or non-numeric value, which `updateSettings` would accept, is not modelled.
- Normalization.Normalize: its own contract states only the shape of the output. What the output keeps and what it ignores is stated by the `NormalizationLaws` lemmas above.
- Rooms.Judge: its contract states the index and response time and that the points are 0 or at least 100. The full statement, including the points `calculatePoints` gives with the limit in milliseconds, is on `Rooms.Grade`.
- Matcher.ToleranceBounds: this is a property of the tolerance table only. The edit-distance consequences are stated on `Matcher.OneEditAccepted`.

## Findings

| source | as written | input that shows it | evidently intended | confidence | as-written member | corrected member |
|---|---|---|---|---|---|---|
| server.js:313-315 | `submitAnswer` reads `questions[currentIndex]` without checking the index. After the last `endQuestion` the index equals the length, and the status stays `playing` for 2 s (472-475). | A player who let the last question run out submits within those 2 s. `question` is `undefined` and `question.answer` throws (`Findings.LateSubmitCrashes`). | Answers are taken only while a question is open. | not executed; high | Findings.SubmitAnswerAsWritten | Rooms.SubmitAnswer |
| server.js:313-316 | Between two questions the index already points at the next question, which has not been sent. | A player who did not answer question i submits during the 2 s gap. The answer is judged against question i+1 and timed from question i's start (`Findings.GapSubmitScoredAgainstNextQuestion`). | Such an answer is ignored. | not executed; high | Findings.SubmitAnswerAsWritten | Rooms.SubmitAnswer |
| server.js:313-314 | During the 3 s countdown `questionStartTime` is still `null` (280, 295-296), and `Date.now() - null` is the raw clock. | In a room's first game a player submits during the countdown. The record is for question 0 with a response time equal to the clock. Sending question 0 empties the answered set, so the player answers question 0 a second time (`Findings.CountdownSubmitAnswersTwice`). | Such an answer is ignored. | not executed; high | Findings.SubmitAnswerAsWritten | Rooms.SubmitAnswer |
| server.js:346 | The early end compares `answeredThisQuestion.size` with `players.size`. `handlePlayerLeave` never removes the leaver from the set (378). | Three players a, b, c. a answers and leaves, then b answers. The size is 2 >= 2, so the question ends before c answers (`Findings.LeaverEndsQuestionEarly`). | The question ends early once every player still in the room has answered (`Rooms.SubmitAnswerWaitsForOthers`, `Rooms.SubmitAnswerLastEnds`). | not executed; medium | Findings.SubmitAnswerAsWritten | Rooms.SubmitAnswer |
| server.js:279-281 | `startGame` accepts the empty question list that an empty theme list or a question count of 0 produces. | The host starts with themes `[]`. 3 s later `sendNextQuestion` reads `questions[0].question` and throws (`Findings.EmptyQuizCrashes`). | A game without questions is not started (`Findings.StartedGameOpensFirstQuestion`). | not executed; medium | Findings.StartGameAsWritten | Rooms.StartGame |

=== FILE: edit_distance.dfy ===
/** Unit-cost edit distance (insert, delete, substitute) and the
    full-matrix dynamic programme `levenshtein` of server.js. */
module EditDistance {

  function Min3(x: nat, y: nat, z: nat): (m: nat)
    ensures m <= x && m <= y && m <= z
    ensures m == x || m == y || m == z
  {
    if x <= y && x <= z then x else if y <= z then y else z
  }

  function Max(x: int, y: int): int {
    if x >= y then x else y
  }

  /** The fewest single-code-point insertions, deletions and substitutions
      turning `a[..j]` into `b[..i]`, by recursion on the last code points. */
  function PrefixDist(a: string, b: string, j: nat, i: nat): (r: nat)
    requires j <= |a| && i <= |b|
    decreases j + i
  {
    if j == 0 then i
    else if i == 0 then j
    else
      Min3(PrefixDist(a, b, j - 1, i - 1) + (if a[j - 1] == b[i - 1] then 0 else 1),
           PrefixDist(a, b, j - 1, i) + 1,
           PrefixDist(a, b, j, i - 1) + 1)
  }

  /** The edit distance between `a` and `b`. */
  function Dist(a: string, b: string): nat {
    PrefixDist(a, b, |a|, |b|)
  }

  /** The distance is at most the longer length: substitute along the
      shorter string, then insert or delete the rest. */
  lemma {:induction false} PrefixDistUpper(a: string, b: string, j: nat, i: nat)
    requires j <= |a| && i <= |b|
    ensures PrefixDist(a, b, j, i) <= Max(j, i)
    decreases j + i
  {
    if j > 0 && i > 0 {
      PrefixDistUpper(a, b, j - 1, i - 1);
    }
  }

  /** The distance is at least the difference of the lengths. */
  lemma {:induction false} PrefixDistLower(a: string, b: string, j: nat, i: nat)
    requires j <= |a| && i <= |b|
    ensures j - i <= PrefixDist(a, b, j, i) && i - j <= PrefixDist(a, b, j, i)
    decreases j + i
  {
    if j > 0 && i > 0 {
      PrefixDistLower(a, b, j - 1, i - 1);
      PrefixDistLower(a, b, j - 1, i);
      PrefixDistLower(a, b, j, i - 1);
    }
  }

  /** Dropping the last code point of the target lowers the distance by at
      most one: neighbouring cells of a column differ by at most one. */
  lemma {:induction false} DropLastOfSecond(a: string, b: string, j: nat, i: nat)
    requires j <= |a| && 0 < i <= |b|
    ensures PrefixDist(a, b, j, i - 1) <= PrefixDist(a, b, j, i) + 1
    decreases j + i
  {
    if j > 0 {
      DropLastOfSecond(a, b, j - 1, i);
    }
  }

  /** Dropping the last code point of the source lowers the distance by at
      most one: neighbouring cells of a row differ by at most one. */
  lemma {:induction false} DropLastOfFirst(a: string, b: string, j: nat, i: nat)
    requires 0 < j <= |a| && i <= |b|
    ensures PrefixDist(a, b, j - 1, i) <= PrefixDist(a, b, j, i) + 1
    decreases j + i
  {
    if i > 0 {
      DropLastOfFirst(a, b, j, i - 1);
    }
  }

  /** When the last code points agree the diagonal cell is never worse than
      the two neighbours, so the minimum is the diagonal: the shortcut
      server.js takes without calling `Math.min`. */
  lemma EqualLastSkipsMin(a: string, b: string, j: nat, i: nat)
    requires 0 < j <= |a| && 0 < i <= |b| && a[j - 1] == b[i - 1]
    ensures PrefixDist(a, b, j, i) == PrefixDist(a, b, j - 1, i - 1)
  {
    DropLastOfSecond(a, b, j - 1, i);
    DropLastOfFirst(a, b, j, i - 1);
  }

  /** Two prefixes are at distance zero exactly when they are equal. */
  lemma {:induction false} PrefixDistZeroIff(a: string, b: string, j: nat, i: nat)
    requires j <= |a| && i <= |b|
    ensures PrefixDist(a, b, j, i) == 0 <==> a[..j] == b[..i]
    decreases j + i
  {
    if j > 0 && i > 0 {
      PrefixDistZeroIff(a, b, j - 1, i - 1);
      assert a[..j] == a[..j - 1] + [a[j - 1]];
      assert b[..i] == b[..i - 1] + [b[i - 1]];
    }
  }

  /** A string is at distance zero from itself, and only from itself. */
  lemma DistZeroIff(a: string, b: string)
    ensures Dist(a, b) == 0 <==> a == b
  {
    PrefixDistZeroIff(a, b, |a|, |b|);
    assert a[..|a|] == a && b[..|b|] == b;
  }

  /** The distance does not depend on the direction of the edit. */
  lemma {:induction false} PrefixDistSymmetric(a: string, b: string, j: nat, i: nat)
    requires j <= |a| && i <= |b|
    ensures PrefixDist(a, b, j, i) == PrefixDist(b, a, i, j)
    decreases j + i
  {
    if j > 0 && i > 0 {
      PrefixDistSymmetric(a, b, j - 1, i - 1);
      PrefixDistSymmetric(a, b, j - 1, i);
      PrefixDistSymmetric(a, b, j, i - 1);
    }
  }

  /** The bounds server.js's tolerance relies on: `d(a, a) = 0`,
      `d("", b) = |b|` and `d(a, b) <= max(|a|, |b|)`, with symmetry. */
  lemma DistFacts(a: string, b: string)
    ensures Dist(a, a) == 0
    ensures Dist([], b) == |b|
    ensures Dist(a, b) <= Max(|a|, |b|)
    ensures Dist(a, b) == Dist(b, a)
  {
    PrefixDistUpper(a, b, |a|, |b|);
    DistZeroIff(a, a);
    PrefixDistSymmetric(a, b, |a|, |b|);
  }

  /** Row `i` of the matrix (server.js's inner loop), given the rows above it. */
  method FillRow(m: array2<nat>, a: string, b: string, i: nat)
    requires m.Length0 == |b| + 1 && m.Length1 == |a| + 1
    requires 1 <= i <= |b|
    requires forall p, q {:trigger m[p, q]} :: 0 <= p < i && 0 <= q <= |a| ==> m[p, q] == PrefixDist(a, b, q, p)
    requires m[i, 0] == i
    modifies m
    ensures forall p, q {:trigger m[p, q]} :: 0 <= p <= i && 0 <= q <= |a| ==> m[p, q] == PrefixDist(a, b, q, p)
    ensures forall p :: i < p <= |b| ==> m[p, 0] == old(m[p, 0])
  {
    var j := 1;
    while j <= |a|
      invariant 1 <= j <= |a| + 1
      invariant forall p, q {:trigger m[p, q]} :: 0 <= p < i && 0 <= q <= |a| ==> m[p, q] == PrefixDist(a, b, q, p)
      invariant forall q {:trigger m[i, q]} :: 0 <= q < j ==> m[i, q] == PrefixDist(a, b, q, i)
      invariant forall p :: i < p <= |b| ==> m[p, 0] == old(m[p, 0])
    {
      if b[i - 1] == a[j - 1] {
        EqualLastSkipsMin(a, b, j, i);
        m[i, j] := m[i - 1, j - 1];
      } else {
        m[i, j] := Min3(m[i - 1, j - 1] + 1, m[i, j - 1] + 1, m[i - 1, j] + 1);
      }
      j := j + 1;
    }
  }

  /** `levenshtein(a, b)`: row `i` of the matrix holds the distances from the
      prefixes of `a` to `b[..i]`. */
  method Levenshtein(a: string, b: string) returns (d: nat)
    ensures d == Dist(a, b)
  {
    var m := new nat[|b| + 1, |a| + 1];
    var i := 0;
    while i <= |b|
      invariant 0 <= i <= |b| + 1
      invariant forall p :: 0 <= p < i ==> m[p, 0] == p
    {
      m[i, 0] := i;
      i := i + 1;
    }
    var j := 0;
    while j <= |a|
      invariant 0 <= j <= |a| + 1
      invariant forall p :: 0 <= p <= |b| ==> m[p, 0] == p
      invariant forall q :: 0 <= q < j ==> m[0, q] == q
    {
      m[0, j] := j;
      j := j + 1;
    }
    i := 1;
    while i <= |b|
      invariant 1 <= i <= |b| + 1
      invariant forall p, q {:trigger m[p, q]} :: 0 <= p < i && 0 <= q <= |a| ==> m[p, q] == PrefixDist(a, b, q, p)
      invariant forall p :: i <= p <= |b| ==> m[p, 0] == p
    {
      FillRow(m, a, b, i);
      i := i + 1;
    }
    d := m[|b|, |a|];
  }
}

=== FILE: findings.dfy ===
/** `submitAnswer` and `startGame` exactly as server.js writes them, next to
    the corrected transitions of module `Rooms`, with the inputs on which they
    differ. */
module Findings {
  import opened Wrappers
  import opened RoomModel
  import opened Matcher
  import opened Scoring
  import opened Rooms

  /** The record `submitAnswer` as written appends: the question is the one
      `currentIndex` points at, sent or not, and a start time of `null`
      counts as 0 in `Date.now() - null`. */
  function JudgeAsWritten(room: Room, answer: string, now: int): (rec: AnswerRecord)
    requires room.game.currentIndex < |room.game.questions|
    ensures rec.questionIndex == room.game.currentIndex
    ensures rec.question == room.game.questions[room.game.currentIndex].prompt
    ensures rec.responseTime == now - room.game.questionStart.GetOr(0)
  {
    Grade(room, answer, Elapsed(room.game, now))
  }

  /** Once the question has been sent the two records agree. */
  lemma JudgeAgreesWhileOpen(room: Room, answer: string, now: int)
    requires QuestionOpen(room.game)
    ensures JudgeAsWritten(room, answer, now) == Judge(room, answer, now)
  {
  }

  /** The room once player `k` is credited by the code as written: the
      interval is cleared once the answered set, which may still hold
      players who left, is as large as the room. */
  function AcceptAsWritten(room: Room, k: nat, rec: AnswerRecord): (r: Room)
    requires k < |room.players|
    ensures r == room.(players := r.players, game := room.game.(answered := r.game.answered, timer := r.game.timer))
    ensures r.game.answered == room.game.answered + {room.players[k].id}
    ensures |r.game.answered| >= |r.players| ==> r.game.timer.None?
    ensures |r.game.answered| < |r.players| ==> r.game.timer == room.game.timer
    ensures |r.players| == |room.players|
    ensures r.players[k].answers == room.players[k].answers + [rec]
    ensures r.players[k].score == room.players[k].score + rec.points
    ensures forall j :: 0 <= j < |room.players| && j != k ==> r.players[j] == room.players[j]
    ensures forall j :: 0 <= j < |room.players| ==> r.players[j].id == room.players[j].id
  {
    var players := Credit(room.players, k, rec);
    var answered := room.game.answered + {room.players[k].id};
    var timer := if |answered| >= |players| then None else room.game.timer;
    var r := room.(players := players, game := room.game.(answered := answered, timer := timer));
    assert r.players == players && r.game.answered == answered;
    r
  }

  /** The socket ids of a list of players. */
  function Ids(ps: seq<Player>): set<string> {
    set k | 0 <= k < |ps| :: ps[k].id
  }

  /** Unique ids are as many as the players. */
  lemma {:induction false} IdsCount(ps: seq<Player>)
    requires UniqueIds(ps)
    ensures |Ids(ps)| == |ps|
  {
    if |ps| > 0 {
      IdsCount(ps[1..]);
      assert Ids(ps) == {ps[0].id} + Ids(ps[1..]) by {
        forall x | x in Ids(ps) ensures x in {ps[0].id} + Ids(ps[1..]) {
          var k :| 0 <= k < |ps| && ps[k].id == x;
          if k > 0 {
            assert ps[1..][k - 1].id == x;
          }
        }
      }
      assert ps[0].id !in Ids(ps[1..]);
    }
  }

  /** While nobody in the answered set has left, counting answers is the
      same test as asking whether every player has answered. */
  lemma SizeTestIffAllAnswered(ps: seq<Player>, answered: set<string>)
    requires UniqueIds(ps) && answered <= Ids(ps)
    ensures |answered| >= |ps| <==> AllAnswered(ps, answered)
  {
    IdsCount(ps);
    if AllAnswered(ps, answered) {
      assert Ids(ps) <= answered;
    }
    var missing := Ids(ps) - answered;
    assert Ids(ps) == missing + answered && missing * answered == {};
    if |answered| >= |ps| {
      assert missing == {};
      forall k | 0 <= k < |ps| ensures ps[k].id in answered {
        assert ps[k].id in Ids(ps);
      }
    }
  }

  /** `submitAnswer` as written: no check that a question is open, and the
      early end compares the size of the answered set with the number of
      players. The sender joins the answered set before the question is
      read, so an index past the end throws with the sender already in it. */
  function SubmitAnswerAsWritten(rooms: map<string, Room>, sender: string, roomCode: string, answer: string, now: int): (s: Step)
    ensures (|| roomCode !in rooms || rooms[roomCode].status != Playing
             || !HasPlayer(rooms[roomCode].players, sender) || sender in rooms[roomCode].game.answered) ==> s == Step(rooms, Ignored)
    ensures s.outcome == Crashed <==>
      && roomCode in rooms && rooms[roomCode].status == Playing
      && HasPlayer(rooms[roomCode].players, sender) && sender !in rooms[roomCode].game.answered
      && rooms[roomCode].game.currentIndex >= |rooms[roomCode].game.questions|
    ensures (&& roomCode in rooms && rooms[roomCode].status == Playing
             && HasPlayer(rooms[roomCode].players, sender) && sender !in rooms[roomCode].game.answered
             && rooms[roomCode].game.currentIndex < |rooms[roomCode].game.questions|) ==> s.outcome.Done?
    ensures s.outcome == Crashed ==>
      var room := rooms[roomCode];
      s.rooms == rooms[roomCode := room.(game := room.game.(answered := room.game.answered + {sender}))]
    ensures s.outcome.Done? ==>
      && roomCode in rooms && HasPlayer(rooms[roomCode].players, sender)
      && rooms[roomCode].game.currentIndex < |rooms[roomCode].game.questions|
      && OthersUnchanged(rooms, s.rooms, roomCode)
      && roomCode in s.rooms
      && s.rooms[roomCode] == AcceptAsWritten(rooms[roomCode], IndexOf(rooms[roomCode].players, sender).value, JudgeAsWritten(rooms[roomCode], answer, now))
      && var after := s.rooms[roomCode];
      && (s.outcome.timeouts == [Timeout(EarlyEndDelayMs, EndQuestionDue, roomCode)] <==> |after.game.answered| >= |after.players|)
      && (s.outcome.timeouts == [] <==> |after.game.answered| < |after.players|)
  {
    if roomCode !in rooms || rooms[roomCode].status != Playing then Step(rooms, Ignored)
    else
      var room := rooms[roomCode];
      match IndexOf(room.players, sender)
      case None => Step(rooms, Ignored)
      case Some(k) =>
        if sender in room.game.answered then Step(rooms, Ignored)
        else if room.game.currentIndex >= |room.game.questions| then
          Step(rooms[roomCode := room.(game := room.game.(answered := room.game.answered + {sender}))], Crashed)
        else
          var room' := AcceptAsWritten(room, k, JudgeAsWritten(room, answer, now));
          var timeouts := if |room'.game.answered| >= |room'.players| then [Timeout(EarlyEndDelayMs, EndQuestionDue, roomCode)] else [];
          Step(rooms[roomCode := room'], Done(timeouts))
  }

  /** Crediting an answer as written keeps a room valid. */
  lemma AcceptAsWrittenKeepsValid(room: Room, k: nat, rec: AnswerRecord)
    requires k < |room.players|
    ensures Valid(room) ==> Valid(AcceptAsWritten(room, k, rec))
  {
    var players := Credit(room.players, k, rec);
    assert AcceptAsWritten(room, k, rec).players == players;
    assert HostFlagsAgree(room) ==> HostFlagsAgree(room.(players := players)) by {
      forall j | 0 <= j < |players| && players[j].isHost && HostFlagsAgree(room) ensures players[j].id == room.hostId {
        assert room.players[j].isHost;
      }
    }
  }

  /** `submitAnswer` as written keeps the registry valid, whatever it does. */
  lemma SubmitAnswerAsWrittenKeepsValid(rooms: map<string, Room>, sender: string, roomCode: string, answer: string, now: int)
    requires RegistryValid(rooms)
    ensures RegistryValid(SubmitAnswerAsWritten(rooms, sender, roomCode, answer, now).rooms)
  {
    var s := SubmitAnswerAsWritten(rooms, sender, roomCode, answer, now);
    if s.outcome.Done? {
      var room := rooms[roomCode];
      AcceptAsWrittenKeepsValid(room, IndexOf(room.players, sender).value, JudgeAsWritten(room, answer, now));
      FileRoom(rooms, s.rooms[roomCode]);
    }
  }

  /** Crediting an answer: while nobody in the answered set has left, the
      size test clears the interval exactly when the corrected test does. */
  lemma AcceptAgrees(room: Room, k: nat, rec: AnswerRecord)
    requires UniqueIds(room.players) && k < |room.players| && room.game.timer.Some?
    requires room.game.answered <= Ids(room.players)
    ensures AcceptAsWritten(room, k, rec) == Accept(room, k, rec)
  {
    var a, b := AcceptAsWritten(room, k, rec), Accept(room, k, rec);
    assert a.game.answered <= Ids(a.players) by {
      forall x | x in a.game.answered ensures x in Ids(a.players) {
        var j := if x == room.players[k].id then k else var j :| 0 <= j < |room.players| && room.players[j].id == x; j;
        assert a.players[j].id == x;
      }
    }
    SizeTestIffAllAnswered(a.players, a.game.answered);
    assert a.players == b.players;
  }

  /** The code as written and the corrected transition agree while a
      question is open and nobody who answered it has left. */
  lemma AsWrittenAgreesWhileOpen(rooms: map<string, Room>, sender: string, roomCode: string, answer: string, now: int)
    requires RegistryValid(rooms) && roomCode in rooms
    requires QuestionOpen(rooms[roomCode].game)
    requires rooms[roomCode].game.answered <= Ids(rooms[roomCode].players)
    ensures SubmitAnswerAsWritten(rooms, sender, roomCode, answer, now) == SubmitAnswer(rooms, sender, roomCode, answer, now)
  {
    var room := rooms[roomCode];
    if room.status == Playing && HasPlayer(room.players, sender) && sender !in room.game.answered {
      var k := IndexOf(room.players, sender).value;
      JudgeAgreesWhileOpen(room, answer, now);
      AcceptAgrees(room, k, Judge(room, answer, now));
    }
  }

  /** The status stays `playing` for 2 s after the last question ends. A
      player who let that question run out is still outside the answered set
      and may submit: the code reads past the end of the question list and
      throws. The corrected transition ignores the message. */
  lemma LateSubmitCrashes(rooms: map<string, Room>, roomCode: string, sender: string, answer: string, now: int)
    requires roomCode in rooms && rooms[roomCode].status == Playing
    requires rooms[roomCode].game.currentIndex + 1 == |rooms[roomCode].game.questions|
    requires HasPlayer(rooms[roomCode].players, sender) && sender !in rooms[roomCode].game.answered
    ensures var s := EndQuestion(rooms, roomCode);
      && s.outcome == Done([Timeout(BetweenQuestionsMs, EndGameDue, roomCode)])
      && s.rooms[roomCode].status == Playing
      && SubmitAnswerAsWritten(s.rooms, sender, roomCode, answer, now).outcome == Crashed
      && SubmitAnswer(s.rooms, sender, roomCode, answer, now).outcome == Ignored
  {
    var s := EndQuestion(rooms, roomCode);
    var k := IndexOf(rooms[roomCode].players, sender).value;
    assert s.rooms[roomCode].players[k].id == sender;
  }

  /** In the 2 s between two questions, a player who let the previous one
      run out is scored against the next question, which has not been shown
      yet, with the previous question's start time. The corrected transition
      ignores the message. */
  lemma GapSubmitScoredAgainstNextQuestion(rooms: map<string, Room>, roomCode: string, sender: string, answer: string, now: int)
    requires RegistryValid(rooms) && roomCode in rooms
    requires rooms[roomCode].status == Playing && rooms[roomCode].game.timer.None?
    requires rooms[roomCode].game.currentIndex + 1 < |rooms[roomCode].game.questions|
    requires HasPlayer(rooms[roomCode].players, sender) && sender !in rooms[roomCode].game.answered
    ensures var g := rooms[roomCode].game;
      var s := EndQuestion(rooms, roomCode);
      var t := SubmitAnswerAsWritten(s.rooms, sender, roomCode, answer, now);
      var rec := JudgeAsWritten(s.rooms[roomCode], answer, now);
      var k := IndexOf(rooms[roomCode].players, sender).value;
      && s.outcome == Done([Timeout(BetweenQuestionsMs, NextQuestionDue, roomCode)])
      && t.outcome.Done?
      && rec.questionIndex == g.currentIndex + 1
      && rec.question == g.questions[g.currentIndex + 1].prompt
      && rec.responseTime == now - g.questionStart.GetOr(0)
      && t.rooms[roomCode].players[k].answers == s.rooms[roomCode].players[k].answers + [rec]
      && SubmitAnswer(s.rooms, sender, roomCode, answer, now).outcome == Ignored
  {
    var s := EndQuestion(rooms, roomCode);
    var k := IndexOf(rooms[roomCode].players, sender).value;
    assert s.rooms[roomCode].players[k].id == sender;
    IndexOfUnique(s.rooms[roomCode].players, sender, k);
  }

  /** One answer taken by the code as written: it is appended to the
      sender's log, who stays at the same place in the room. */
  lemma AsWrittenLogsAnswer(rooms: map<string, Room>, sender: string, roomCode: string, answer: string, now: int)
    requires roomCode in rooms && rooms[roomCode].status == Playing && UniqueIds(rooms[roomCode].players)
    requires HasPlayer(rooms[roomCode].players, sender) && sender !in rooms[roomCode].game.answered
    requires rooms[roomCode].game.currentIndex < |rooms[roomCode].game.questions|
    ensures var before, s := rooms[roomCode], SubmitAnswerAsWritten(rooms, sender, roomCode, answer, now);
      var k := IndexOf(before.players, sender).value;
      && s.outcome.Done? && roomCode in s.rooms
      && var after := s.rooms[roomCode];
      && after.status == Playing && after.game.questions == before.game.questions
      && after.game.currentIndex == before.game.currentIndex
      && UniqueIds(after.players) && IndexOf(after.players, sender) == Some(k)
      && after.players[k].answers == before.players[k].answers + [JudgeAsWritten(before, answer, now)]
  {
    var before, s := rooms[roomCode], SubmitAnswerAsWritten(rooms, sender, roomCode, answer, now);
    var k := IndexOf(before.players, sender).value;
    IndexOfUnique(s.rooms[roomCode].players, sender, k);
  }

  /** During the 3 s countdown the first question has not been sent: an
      answer is judged against it with a start time of `null`, so the
      response time is the raw clock; sending the question then empties the
      answered set and the same player answers question 0 a second time.
      The corrected transition ignores the first message. */
  lemma CountdownSubmitAnswersTwice(rooms: map<string, Room>, roomCode: string, sender: string,
                                    a1: string, t1: int, t2: int, a2: string, t3: int)
    requires RegistryValid(rooms) && roomCode in rooms && rooms[roomCode].status == Playing
    requires rooms[roomCode].game.questionStart.None? && rooms[roomCode].game.currentIndex == 0
    requires |rooms[roomCode].game.questions| > 0
    requires HasPlayer(rooms[roomCode].players, sender) && sender !in rooms[roomCode].game.answered
    ensures var k := IndexOf(rooms[roomCode].players, sender).value;
      var n := |rooms[roomCode].players[k].answers|;
      var s1 := SubmitAnswerAsWritten(rooms, sender, roomCode, a1, t1);
      var s2 := SendNextQuestion(s1.rooms, roomCode, t2);
      var s3 := SubmitAnswerAsWritten(s2.rooms, sender, roomCode, a2, t3);
      && s1.outcome.Done? && s2.outcome == Done([]) && s3.outcome.Done?
      && var log := s3.rooms[roomCode].players[k].answers;
      && |log| == n + 2
      && log[n].questionIndex == 0 && log[n + 1].questionIndex == 0
      && log[n].responseTime == t1
      && SubmitAnswer(rooms, sender, roomCode, a1, t1).outcome == Ignored
  {
    var k := IndexOf(rooms[roomCode].players, sender).value;
    var s1 := SubmitAnswerAsWritten(rooms, sender, roomCode, a1, t1);
    AsWrittenLogsAnswer(rooms, sender, roomCode, a1, t1);
    var first := JudgeAsWritten(rooms[roomCode], a1, t1);
    assert first.questionIndex == 0 && first.responseTime == t1;
    var s2 := SendNextQuestion(s1.rooms, roomCode, t2);
    var r2 := s2.rooms[roomCode];
    assert r2.players == s1.rooms[roomCode].players && sender !in r2.game.answered && r2.game.currentIndex == 0;
    AsWrittenLogsAnswer(s2.rooms, sender, roomCode, a2, t3);
    var second := JudgeAsWritten(r2, a2, t3);
    assert second.questionIndex == 0;
    var log := SubmitAnswerAsWritten(s2.rooms, sender, roomCode, a2, t3).rooms[roomCode].players[k].answers;
    assert log == s1.rooms[roomCode].players[k].answers + [second];
    assert SubmitAnswer(rooms, sender, roomCode, a1, t1).outcome == Ignored;
  }

  /** The first of three players leaves after answering: two players stay,
      in order, and the game is untouched. */
  lemma FirstOfThreeLeaves(rooms: map<string, Room>, roomCode: string)
    requires RegistryValid(rooms) && roomCode in rooms && |rooms[roomCode].players| == 3
    ensures var ps := rooms[roomCode].players;
      var s := HandlePlayerLeave(rooms, ps[0].id, roomCode);
      && s.outcome == Done([]) && roomCode in s.rooms
      && var after := s.rooms[roomCode];
      && after.status == rooms[roomCode].status && after.game == rooms[roomCode].game
      && |after.players| == 2 && after.players[0].id == ps[1].id && after.players[1].id == ps[2].id
      && ps[0].id != ps[1].id && ps[0].id != ps[2].id && ps[1].id != ps[2].id
  {
    var room := rooms[roomCode];
    IndexOfUnique(room.players, room.players[0].id, 0);
    DepartOrder(room, room.players[0].id, 0);
    DepartValid(room, room.players[0].id, 0);
  }

  /** Two players `b` and `c`, and an answered set holding only someone who
      left: the code as written ends the question on `b`'s answer. */
  lemma AsWrittenCountsLeaver(rooms: map<string, Room>, roomCode: string, a: string, answer: string, now: int)
    requires roomCode in rooms
    requires var room := rooms[roomCode];
      && room.status == Playing && room.game.currentIndex < |room.game.questions|
      && |room.players| == 2 && room.players[0].id != room.players[1].id
      && a != room.players[0].id && a != room.players[1].id && room.game.answered == {a}
    ensures var ps := rooms[roomCode].players;
      var t := SubmitAnswerAsWritten(rooms, ps[0].id, roomCode, answer, now);
      && t.outcome == Done([Timeout(EarlyEndDelayMs, EndQuestionDue, roomCode)])
      && ps[1].id !in t.rooms[roomCode].game.answered
  {
    var ps := rooms[roomCode].players;
    assert IndexOf(ps, ps[0].id) == Some(0);
    assert {a} + {ps[0].id} == {a, ps[0].id};
  }

  /** ... while the corrected transition waits for `c`. */
  lemma CorrectedIgnoresLeaver(rooms: map<string, Room>, roomCode: string, a: string, answer: string, now: int)
    requires roomCode in rooms
    requires var room := rooms[roomCode];
      && room.status == Playing && QuestionOpen(room.game)
      && |room.players| == 2 && room.players[0].id != room.players[1].id
      && a != room.players[0].id && a != room.players[1].id && room.game.answered == {a}
    ensures SubmitAnswer(rooms, rooms[roomCode].players[0].id, roomCode, answer, now).outcome == Done([])
  {
    var ps := rooms[roomCode].players;
    assert IndexOf(ps, ps[0].id) == Some(0);
    assert IndexOf(ps, ps[1].id) == Some(1);
    SubmitAnswerWaitsForOthers(rooms, ps[0].id, roomCode, answer, now, ps[1].id);
  }

  /** A player who answers and then leaves still counts as answered: with
      three players, once the first has answered and left, the second
      player's answer ends the question although the third has not answered.
      The corrected transition keeps the question open. */
  lemma LeaverEndsQuestionEarly(rooms: map<string, Room>, roomCode: string, answer: string, now: int)
    requires RegistryValid(rooms) && roomCode in rooms
    requires var room := rooms[roomCode];
      && room.status == Playing && QuestionOpen(room.game) && |room.players| == 3
      && room.game.answered == {room.players[0].id}
    ensures var ps := rooms[roomCode].players;
      var s1 := HandlePlayerLeave(rooms, ps[0].id, roomCode);
      var t := SubmitAnswerAsWritten(s1.rooms, ps[1].id, roomCode, answer, now);
      && s1.outcome == Done([])
      && t.outcome == Done([Timeout(EarlyEndDelayMs, EndQuestionDue, roomCode)])
      && ps[2].id !in t.rooms[roomCode].game.answered
      && SubmitAnswer(s1.rooms, ps[1].id, roomCode, answer, now).outcome == Done([])
  {
    var ps := rooms[roomCode].players;
    FirstOfThreeLeaves(rooms, roomCode);
    var s1 := HandlePlayerLeave(rooms, ps[0].id, roomCode);
    AsWrittenCountsLeaver(s1.rooms, roomCode, ps[0].id, answer, now);
    CorrectedIgnoresLeaver(s1.rooms, roomCode, ps[0].id, answer, now);
  }

  /** `startGame` as written: an empty question list (no themes selected, or
      a question count of 0 set through `updateSettings`) is accepted. */
  function StartGameAsWritten(rooms: map<string, Room>, sender: string, roomCode: string, questions: seq<Question>): (s: Step)
    ensures StartGame(rooms, sender, roomCode, questions).outcome != Refused(NoQuestions) ==>
      s == StartGame(rooms, sender, roomCode, questions)
    ensures roomCode in rooms && rooms[roomCode].hostId == sender && |rooms[roomCode].players| >= MinPlayers ==>
      && s.outcome == Done([Timeout(CountdownMs, NextQuestionDue, roomCode)])
      && roomCode in s.rooms && s.rooms[roomCode].status == Playing
      && s.rooms[roomCode].game.questions == questions && s.rooms[roomCode].game.currentIndex == 0
  {
    if roomCode !in rooms || rooms[roomCode].hostId != sender then Step(rooms, Refused(NotHost))
    else
      var room := rooms[roomCode];
      if |room.players| < MinPlayers then Step(rooms, Refused(NotEnoughPlayers))
      else
        var game := room.game.(questions := questions, currentIndex := 0);
        var room' := room.(status := Playing, game := game, players := ResetScores(room.players));
        Step(rooms[roomCode := room'], Done([Timeout(CountdownMs, NextQuestionDue, roomCode)]))
  }

  /** Where the corrected transition refuses an empty list, the as-written
      one does what the corrected one does for any single question `q`, and
      then holds the empty list: same outcome, same refusals, same score
      reset, and no other room touched. */
  lemma StartGameAsWrittenEmpty(rooms: map<string, Room>, sender: string, roomCode: string, q: Question)
    requires StartGame(rooms, sender, roomCode, []).outcome == Refused(NoQuestions)
    ensures var s, c := StartGameAsWritten(rooms, sender, roomCode, []), StartGame(rooms, sender, roomCode, [q]);
      && roomCode in c.rooms
      && s.outcome == c.outcome
      && s.rooms == c.rooms[roomCode := c.rooms[roomCode].(game := c.rooms[roomCode].game.(questions := []))]
  {
  }

  /** A game started without questions throws when the countdown ends and
      the first question is read; the corrected transition refuses to start
      it. */
  lemma EmptyQuizCrashes(rooms: map<string, Room>, sender: string, roomCode: string, now: int)
    requires roomCode in rooms && rooms[roomCode].hostId == sender && |rooms[roomCode].players| >= MinPlayers
    ensures var s := StartGameAsWritten(rooms, sender, roomCode, []);
      && s.outcome == Done([Timeout(CountdownMs, NextQuestionDue, roomCode)])
      && SendNextQuestion(s.rooms, roomCode, now).outcome == Crashed
    ensures StartGame(rooms, sender, roomCode, []) == Step(rooms, Refused(NoQuestions))
  {
  }

  /** With the corrected start, the question the countdown leads to exists:
      sending it opens question 0 instead of throwing. */
  lemma StartedGameOpensFirstQuestion(rooms: map<string, Room>, sender: string, roomCode: string, questions: seq<Question>, now: int)
    requires StartGame(rooms, sender, roomCode, questions).outcome.Done?
    ensures var s := StartGame(rooms, sender, roomCode, questions);
      var t := SendNextQuestion(s.rooms, roomCode, now);
      && t.outcome == Done([])
      && QuestionOpen(t.rooms[roomCode].game)
      && t.rooms[roomCode].game.currentIndex == 0
      && t.rooms[roomCode].game.questionStart == Some(now)
  {
  }
}

=== FILE: matcher.dfy ===
/** `checkAnswer` of server.js: exact match after normalisation, no
    fuzziness for numeric answers, otherwise an edit-distance tolerance that
    grows with the length of the answers. */
module Matcher {
  import opened Text
  import opened Normalization
  import opened EditDistance

  /** `/^\d+$/.test(correctAnswer.trim())`. */
  predicate IsNumeric(answer: string) {
    var t := Trim(answer);
    |t| > 0 && forall i :: 0 <= i < |t| ==> IsAsciiDigit(t[i])
  }

  /** The number of edits tolerated for answers whose longer normalised form
      has `maxLength` code points; `Math.floor(maxLength * 0.2)` is
      `maxLength / 5` on integers. */
  function Tolerance(maxLength: nat): nat {
    if maxLength <= 4 then 1
    else if maxLength <= 8 then 2
    else maxLength / 5
  }

  /** At least one edit is always tolerated, and never more than a fifth of
      the length once the length passes 10. */
  lemma ToleranceBounds(maxLength: nat)
    ensures 1 <= Tolerance(maxLength)
    ensures maxLength >= 10 ==> 5 * Tolerance(maxLength) <= maxLength
  {
  }

  /** The tolerance is not monotone in the length: 8 code points tolerate two
      edits, 9 only one. */
  lemma ToleranceNotMonotone()
    ensures Tolerance(8) == 2 && Tolerance(9) == 1
  {
  }

  /** `checkAnswer(userAnswer, correctAnswer)`. */
  function CheckAnswer(userAnswer: string, correctAnswer: string): (ok: bool)
    ensures Normalize(userAnswer) == Normalize(correctAnswer) ==> ok
    ensures IsNumeric(correctAnswer) ==> (ok <==> Normalize(userAnswer) == Normalize(correctAnswer))
    ensures !IsNumeric(correctAnswer) ==>
      var u, c := Normalize(userAnswer), Normalize(correctAnswer);
      (ok <==> Dist(u, c) <= Tolerance(Max(|u|, |c|)))
  {
    var u := Normalize(userAnswer);
    var c := Normalize(correctAnswer);
    DistFacts(u, c);
    if u == c then true
    else if IsNumeric(correctAnswer) then false
    else Dist(u, c) <= Tolerance(Max(|u|, |c|))
  }

  /** An answer is always accepted against itself. */
  lemma CheckAnswerReflexive(s: string)
    ensures CheckAnswer(s, s)
  {
  }

  /** A non-numeric answer within one edit of the expected one is accepted,
      whatever its length. */
  lemma OneEditAccepted(userAnswer: string, correctAnswer: string)
    requires !IsNumeric(correctAnswer)
    requires Dist(Normalize(userAnswer), Normalize(correctAnswer)) <= 1
    ensures CheckAnswer(userAnswer, correctAnswer)
  {
    var u, c := Normalize(userAnswer), Normalize(correctAnswer);
    ToleranceBounds(Max(|u|, |c|));
  }

  /** Inserting one code point anywhere costs exactly one edit at most. */
  lemma {:induction false} InsertOneCostsOne(x: string, ch: char, y: string)
    ensures Dist(x + y, x + [ch] + y) <= 1
  {
    var u, c := x + y, x + [ch] + y;
    assert u[..|x|] == x == c[..|x|];
    PrefixDistZeroIff(u, c, |x|, |x|);
    var k := 0;
    while k < |y|
      invariant 0 <= k <= |y|
      invariant PrefixDist(u, c, |x| + k, |x| + 1 + k) <= 1
    {
      assert u[|x| + k] == y[k] == c[|x| + 1 + k];
      EqualLastSkipsMin(u, c, |x| + k + 1, |x| + 1 + k + 1);
      k := k + 1;
    }
  }

  /** A one-letter omission is forgiven: "Lyn" for "Lyon", "Londre" for
      "Londres", and any other answer whose normal form lacks one code point
      of the expected normal form. */
  lemma MissingLetterAccepted(userAnswer: string, correctAnswer: string, x: string, ch: char, y: string)
    requires !IsNumeric(correctAnswer)
    requires Normalize(userAnswer) == x + y && Normalize(correctAnswer) == x + [ch] + y
    ensures CheckAnswer(userAnswer, correctAnswer)
  {
    InsertOneCostsOne(x, ch, y);
    OneEditAccepted(userAnswer, correctAnswer);
  }

  /** Two edits are too many when both normal forms have at most four code
      points: with "Lyon" expected, "Ly" is refused. */
  lemma ShortAnswerTwoEditsRejected(userAnswer: string, correctAnswer: string)
    requires var u, c := Normalize(userAnswer), Normalize(correctAnswer);
      |u| <= 4 && |c| <= 4 && Dist(u, c) >= 2
    ensures !CheckAnswer(userAnswer, correctAnswer)
  {
    var u, c := Normalize(userAnswer), Normalize(correctAnswer);
    DistZeroIff(u, c);
    assert u != c;
    assert Tolerance(Max(|u|, |c|)) == 1;
  }

  /** Up to two edits are forgiven when the longer normal form has five to
      eight code points. */
  lemma MidLengthTwoEditsAccepted(userAnswer: string, correctAnswer: string)
    requires !IsNumeric(correctAnswer)
    requires var u, c := Normalize(userAnswer), Normalize(correctAnswer);
      5 <= Max(|u|, |c|) <= 8 && Dist(u, c) <= 2
    ensures CheckAnswer(userAnswer, correctAnswer)
  {
  }

  /** ASCII digits survive normalisation unchanged. */
  lemma DigitsAreNormalized(s: string)
    requires forall i :: 0 <= i < |s| ==> IsAsciiDigit(s[i])
    ensures Normalize(s) == s
  {
    assert IsNormalized(s);
    NormalizeFixesNormalized(s);
  }

  /** Two different numbers never match, even one digit apart: "45" is
      refused for department "44" although their edit distance is 1. */
  lemma DifferentNumbersRejected(userAnswer: string, correctAnswer: string)
    requires |correctAnswer| > 0
    requires forall i :: 0 <= i < |userAnswer| ==> IsAsciiDigit(userAnswer[i])
    requires forall i :: 0 <= i < |correctAnswer| ==> IsAsciiDigit(correctAnswer[i])
    requires userAnswer != correctAnswer
    ensures !CheckAnswer(userAnswer, correctAnswer)
  {
    DigitsAreNormalized(userAnswer);
    DigitsAreNormalized(correctAnswer);
    DigitsAreTrimmed(correctAnswer);
    assert IsNumeric(correctAnswer);
  }

  /** `trim` leaves a string of digits alone. */
  lemma DigitsAreTrimmed(s: string)
    requires |s| > 0
    requires forall i :: 0 <= i < |s| ==> IsAsciiDigit(s[i])
    ensures Trim(s) == s
  {
    assert !IsJsSpace(s[0]) && !IsJsSpace(s[|s| - 1]);
    assert TrimStart(s) == s;
    assert TrimEnd(s) == s;
  }
}

=== FILE: normalize.dfy ===
/** The answer normaliser of server.js: lower-case, canonical decomposition
    (Unicode Standard Annex #15, form NFD), removal of the combining marks
    U+0300..U+036F, `-` and `_` turned into spaces, whitespace runs collapsed
    to one space, and the result trimmed.

    Case mapping and decomposition are modelled for ASCII and the Latin-1
    Supplement, the range the quiz answers use; other code points are treated
    as having no lower-case form and no decomposition. */
module Normalization {
  import opened Text

  /** The combining diacritical marks stripped after decomposition. */
  predicate IsMark(c: char) {
    '\U{0300}' <= c <= '\U{036F}'
  }

  /** `toLowerCase` on ASCII and Latin-1 capitals (U+00D7, the
      multiplication sign, is not a letter). */
  function LowerChar(c: char): (l: char)
    ensures 'A' <= c <= 'Z' ==> 'a' <= l <= 'z'
    ensures !('A' <= l <= 'Z') && !('\U{00C0}' <= l <= '\U{00DE}' && l != '\U{00D7}')
  {
    if 'A' <= c <= 'Z' || ('\U{00C0}' <= c <= '\U{00DE}' && c != '\U{00D7}')
    then (c as int + 32) as char
    else c
  }

  /** The canonical decomposition of a lower-case Latin-1 letter into its
      base letter and one combining mark, if it has one. */
  function Decompose(c: char): seq<char>
  {
    match c
    case '\U{00E0}' => ['a', '\U{0300}']
    case '\U{00E1}' => ['a', '\U{0301}']
    case '\U{00E2}' => ['a', '\U{0302}']
    case '\U{00E3}' => ['a', '\U{0303}']
    case '\U{00E4}' => ['a', '\U{0308}']
    case '\U{00E5}' => ['a', '\U{030A}']
    case '\U{00E7}' => ['c', '\U{0327}']
    case '\U{00E8}' => ['e', '\U{0300}']
    case '\U{00E9}' => ['e', '\U{0301}']
    case '\U{00EA}' => ['e', '\U{0302}']
    case '\U{00EB}' => ['e', '\U{0308}']
    case '\U{00EC}' => ['i', '\U{0300}']
    case '\U{00ED}' => ['i', '\U{0301}']
    case '\U{00EE}' => ['i', '\U{0302}']
    case '\U{00EF}' => ['i', '\U{0308}']
    case '\U{00F1}' => ['n', '\U{0303}']
    case '\U{00F2}' => ['o', '\U{0300}']
    case '\U{00F3}' => ['o', '\U{0301}']
    case '\U{00F4}' => ['o', '\U{0302}']
    case '\U{00F5}' => ['o', '\U{0303}']
    case '\U{00F6}' => ['o', '\U{0308}']
    case '\U{00F9}' => ['u', '\U{0300}']
    case '\U{00FA}' => ['u', '\U{0301}']
    case '\U{00FB}' => ['u', '\U{0302}']
    case '\U{00FC}' => ['u', '\U{0308}']
    case '\U{00FD}' => ['y', '\U{0301}']
    case '\U{00FF}' => ['y', '\U{0308}']
    case _ => [c]
  }

  /** The code points `Decompose` splits: the lower-case Latin-1 letters
      except æ, ð, ø, þ, ß and the division sign. */
  predicate Decomposable(c: char) {
    && '\U{00E0}' <= c <= '\U{00FF}'
    && c != '\U{00E6}' && c != '\U{00F0}' && c != '\U{00F7}' && c != '\U{00F8}' && c != '\U{00FE}'
  }

  /** Decomposition either leaves a code point alone or splits it into an
      ASCII base letter and one combining mark. */
  lemma DecomposeShape(c: char)
    ensures !Decomposable(c) ==> Decompose(c) == [c]
    ensures Decomposable(c) ==> var d := Decompose(c);
      |d| == 2 && 'a' <= d[0] <= 'z' && IsMark(d[1])
  {
  }

  /** A code point that neither lower-casing nor decomposition changes. */
  predicate Stable(c: char) {
    LowerChar(c) == c && !Decomposable(c)
  }

  /** What every code point of a normalised answer satisfies. */
  predicate CleanChar(c: char) {
    && Stable(c)
    && !IsMark(c)
    && c != '-' && c != '_'
    && (IsJsSpace(c) ==> c == ' ')
  }

  /** No two adjacent spaces. */
  predicate NoDoubleSpace(s: string) {
    forall i :: 0 <= i < |s| - 1 ==> !(s[i] == ' ' && s[i + 1] == ' ')
  }

  /** The shape of every output of `Normalize`. */
  predicate IsNormalized(s: string) {
    && (forall i :: 0 <= i < |s| ==> CleanChar(s[i]))
    && (|s| > 0 ==> s[0] != ' ' && s[|s| - 1] != ' ')
    && NoDoubleSpace(s)
  }

  function ToLower(s: string): (r: string)
    ensures |r| == |s|
    ensures forall i :: 0 <= i < |s| ==> r[i] == LowerChar(s[i])
  {
    seq(|s|, i requires 0 <= i < |s| => LowerChar(s[i]))
  }

  /** Decomposition of every code point (the mark-reordering step of NFD is
      not needed: every decomposition here yields a single mark). */
  function Nfd(s: string): string {
    if |s| == 0 then [] else Decompose(s[0]) + Nfd(s[1..])
  }

  /** After decomposition every code point is a mark, an ASCII lower-case
      letter or an undecomposable code point of the input; input with
      nothing to decompose is left alone. */
  lemma {:induction false} NfdShape(s: string)
    ensures forall c :: c in Nfd(s) ==>
      IsMark(c) || ('a' <= c <= 'z') || (c in s && !Decomposable(c))
    ensures (forall i :: 0 <= i < |s| ==> !Decomposable(s[i])) ==> Nfd(s) == s
    decreases |s|
  {
    if |s| > 0 {
      DecomposeShape(s[0]);
      NfdShape(s[1..]);
      assert s == [s[0]] + s[1..];
    }
  }

  /** `replace(/[̀-ͯ]/g, '')`. */
  function StripMarks(s: string): string {
    if |s| == 0 then []
    else if IsMark(s[0]) then StripMarks(s[1..])
    else [s[0]] + StripMarks(s[1..])
  }

  /** A code point survives exactly when it is not a mark; input without
      marks is left alone. */
  lemma {:induction false} StripMarksMembers(s: string)
    ensures forall c :: c in StripMarks(s) <==> c in s && !IsMark(c)
    ensures (forall i :: 0 <= i < |s| ==> !IsMark(s[i])) ==> StripMarks(s) == s
    decreases |s|
  {
    if |s| > 0 {
      StripMarksMembers(s[1..]);
      assert s == [s[0]] + s[1..];
    }
  }

  /** `replace(/[-_]/g, ' ')`. */
  function MapSeparators(s: string): (r: string)
    ensures |r| == |s|
    ensures forall i :: 0 <= i < |s| ==>
      if s[i] == '-' || s[i] == '_' then r[i] == ' ' else r[i] == s[i]
  {
    seq(|s|, i requires 0 <= i < |s| => if s[i] == '-' || s[i] == '_' then ' ' else s[i])
  }

  /** `replace(/\s+/g, ' ')`: every maximal run of whitespace becomes one space. */
  function Collapse(s: string): string
    decreases |s|
  {
    if |s| == 0 then []
    else if IsJsSpace(s[0]) then [' '] + Collapse(TrimStart(s[1..]))
    else [s[0]] + Collapse(s[1..])
  }

  /** Putting a code point in front keeps two spaces apart unless it is a
      space put before one. */
  lemma NoDoubleSpaceCons(c: char, r: string)
    requires NoDoubleSpace(r) && (c == ' ' && |r| > 0 ==> r[0] != ' ')
    ensures NoDoubleSpace([c] + r)
  {
    var s := [c] + r;
    assert forall i :: 1 <= i < |s| ==> s[i] == r[i - 1];
  }

  /** The result holds only spaces and the code points of the input that are
      not whitespace. */
  lemma {:induction false} CollapseMembers(s: string)
    ensures forall c :: c in Collapse(s) ==> c == ' ' || (c in s && !IsJsSpace(c))
    decreases |s|
  {
    if |s| > 0 {
      var t := if IsJsSpace(s[0]) then TrimStart(s[1..]) else s[1..];
      CollapseMembers(t);
      assert forall c :: c in t ==> c in s;
      var head := if IsJsSpace(s[0]) then ' ' else s[0];
      assert Collapse(s) == [head] + Collapse(t);
    }
  }

  /** The result has no two adjacent spaces; it is empty exactly when the
      input is, and starts with a space exactly when the input starts with
      whitespace. */
  lemma {:induction false} CollapseSpacing(s: string)
    ensures NoDoubleSpace(Collapse(s))
    ensures |Collapse(s)| == 0 <==> |s| == 0
    ensures |s| > 0 ==> if IsJsSpace(s[0]) then Collapse(s)[0] == ' ' else Collapse(s)[0] == s[0]
    decreases |s|
  {
    if |s| > 0 {
      if IsJsSpace(s[0]) {
        var t := TrimStart(s[1..]);
        CollapseSpacing(t);
        assert Collapse(s) == [' '] + Collapse(t);
        NoDoubleSpaceCons(' ', Collapse(t));
      } else {
        CollapseSpacing(s[1..]);
        assert Collapse(s) == [s[0]] + Collapse(s[1..]);
        NoDoubleSpaceCons(s[0], Collapse(s[1..]));
      }
    }
  }

  /** Only plain spaces, never two in a row. */
  predicate SpacesCollapsed(s: string) {
    && (forall i :: 0 <= i < |s| ==> IsJsSpace(s[i]) ==> s[i] == ' ')
    && NoDoubleSpace(s)
  }

  /** A string whose whitespace is already collapsed is left unchanged. */
  lemma {:induction false} CollapseFixes(s: string)
    requires SpacesCollapsed(s)
    ensures Collapse(s) == s
    decreases |s|
  {
    if |s| > 0 {
      assert SpacesCollapsed(s[1..]);
      CollapseFixes(s[1..]);
      if IsJsSpace(s[0]) {
        assert TrimStart(s[1..]) == s[1..];
      }
    }
  }

  /** The four stages before whitespace is collapsed. */
  function Prepare(s: string): string {
    MapSeparators(StripMarks(Nfd(ToLower(s))))
  }

  /** Every code point surviving the first four stages is clean or a space. */
  lemma StagesClean(s: string)
    ensures forall c :: c in Prepare(s) ==>
      Stable(c) && !IsMark(c) && c != '-' && c != '_'
  {
    var lowered := ToLower(s);
    var stripped := StripMarks(Nfd(lowered));
    var spaced := MapSeparators(stripped);
    NfdShape(lowered);
    StripMarksMembers(Nfd(lowered));
    assert forall c :: c in lowered ==> LowerChar(c) == c;
    assert forall c :: c in stripped ==> Stable(c) && !IsMark(c);
    forall c | c in spaced
      ensures Stable(c) && !IsMark(c) && c != '-' && c != '_'
    {
      var i :| 0 <= i < |spaced| && spaced[i] == c;
      assert stripped[i] in stripped;
    }
  }

  /** Trimming a collapsed string of clean code points yields a normalised one. */
  lemma TrimCollapsedIsNormalized(collapsed: string)
    requires forall c :: c in collapsed ==> CleanChar(c)
    requires NoDoubleSpace(collapsed)
    ensures IsNormalized(Trim(collapsed))
  {
    var r := Trim(collapsed);
    var k := LeadingSpaces(collapsed);
    assert forall i :: 0 <= i < |r| ==> r[i] == collapsed[k + i];
    assert forall i :: 0 <= i < |r| ==> CleanChar(r[i]) by {
      forall i | 0 <= i < |r| ensures CleanChar(r[i]) {
        assert collapsed[k + i] in collapsed;
      }
    }
  }

  /** `normalize(str)` of server.js. */
  function Normalize(s: string): (r: string)
    ensures forall i :: 0 <= i < |r| ==> r[i] != '-' && r[i] != '_' && !IsMark(r[i])
    ensures forall i :: 0 <= i < |r| ==> !('A' <= r[i] <= 'Z')
    ensures |r| > 0 ==> r[0] != ' ' && r[|r| - 1] != ' '
    ensures NoDoubleSpace(r)
    ensures IsNormalized(r)
  {
    var collapsed := Collapse(Prepare(s));
    StagesClean(s);
    CollapseMembers(Prepare(s));
    CollapseSpacing(Prepare(s));
    TrimCollapsedIsNormalized(collapsed);
    Trim(collapsed)
  }

  /** A normalised string is a fixed point of every stage of `Normalize`. */
  lemma {:induction false} NormalizeFixesNormalized(s: string)
    requires IsNormalized(s)
    ensures Normalize(s) == s
  {
    assert ToLower(s) == s;
    NfdShape(s);
    StripMarksMembers(s);
    assert MapSeparators(s) == s;
    CollapseFixes(s);
    assert TrimStart(s) == s;
    assert TrimEnd(s) == s;
  }

  /** Normalising twice is normalising once. */
  lemma NormalizeIdempotent(s: string)
    ensures Normalize(Normalize(s)) == Normalize(s)
  {
    NormalizeFixesNormalized(Normalize(s));
  }

  /** Lower-casing first changes nothing, as `toLowerCase` is the first stage. */
  lemma NormalizeAfterLower(s: string)
    ensures Normalize(ToLower(s)) == Normalize(s)
  {
    assert ToLower(ToLower(s)) == ToLower(s);
  }

  /** A word of ASCII letters and digits normalises to its lower-case form. */
  lemma NormalizePlainWord(s: string)
    requires forall i :: 0 <= i < |s| ==> 'a' <= s[i] <= 'z' || 'A' <= s[i] <= 'Z' || '0' <= s[i] <= '9'
    ensures Normalize(s) == ToLower(s)
  {
    var l := ToLower(s);
    assert IsNormalized(l);
    NormalizeFixesNormalized(l);
    NormalizeAfterLower(s);
  }
}

=== FILE: normalize_laws.dfy ===
/** What `normalize` of server.js promises the answer checker: whitespace
    runs between words become exactly one space and nothing else moves, the
    stages before the collapse work code point by code point, and case,
    accents and the choice of separator do not matter. */
module NormalizationLaws {
  import opened Text
  import opened Normalization

  // ------------------------------------------------------ collapsing spaces

  /** The code points of `s` that are not whitespace, in order. */
  function DropSpaces(s: string): (r: string)
    ensures forall c :: c in r <==> c in s && !IsJsSpace(c)
  {
    if |s| == 0 then []
    else if IsJsSpace(s[0]) then DropSpaces(s[1..])
    else [s[0]] + DropSpaces(s[1..])
  }

  lemma {:induction false} DropLeadingSpaces(s: string)
    ensures DropSpaces(TrimStart(s)) == DropSpaces(s)
    decreases |s|
  {
    if |s| > 0 && IsJsSpace(s[0]) {
      DropLeadingSpaces(s[1..]);
    }
  }

  /** Collapsing keeps every code point that is not whitespace, in order:
      only the whitespace between them changes. */
  lemma {:induction false} CollapseKeepsWords(s: string)
    ensures DropSpaces(Collapse(s)) == DropSpaces(s)
    decreases |s|
  {
    if |s| > 0 {
      if IsJsSpace(s[0]) {
        var t := TrimStart(s[1..]);
        CollapseKeepsWords(t);
        DropLeadingSpaces(s[1..]);
        assert ([' '] + Collapse(t))[1..] == Collapse(t);
      } else {
        CollapseKeepsWords(s[1..]);
        assert ([s[0]] + Collapse(s[1..]))[1..] == Collapse(s[1..]);
      }
    }
  }

  /** A whitespace run at the front becomes one space. */
  lemma CollapseRun(w: string, y: string)
    requires |w| > 0 && forall i :: 0 <= i < |w| ==> IsJsSpace(w[i])
    requires |y| > 0 ==> !IsJsSpace(y[0])
    ensures Collapse(w + y) == [' '] + Collapse(y)
  {
    var s := w + y;
    assert s[0] == w[0];
    assert s[1..] == w[1..] + y;
    TrimStartSkipsRun(w[1..], y);
    assert TrimStart(s[1..]) == y;
  }

  /** A leading code point that is not whitespace is kept, whatever follows. */
  lemma CollapseWordHead(x: string, y: string)
    requires |x| > 0 && !IsJsSpace(x[0])
    ensures Collapse(x + y) == [x[0]] + Collapse(x[1..] + y)
  {
    var s := x + y;
    assert s[0] == x[0];
    assert s[1..] == x[1..] + y;
  }

  /** A leading whitespace run that ends inside `x` becomes one space,
      whatever follows. */
  lemma CollapseSpaceHead(x: string, y: string)
    requires |x| > 0 && IsJsSpace(x[0]) && !IsJsSpace(x[|x| - 1])
    ensures Collapse(x + y) == [' '] + Collapse(TrimStart(x[1..]) + y)
  {
    var s := x + y;
    assert s[0] == x[0];
    assert s[1..] == x[1..] + y;
    TrimStartKeepsLast(x[1..]);
    TrimStartAppend(x[1..], y);
    assert TrimStart(s[1..]) == TrimStart(x[1..]) + y;
  }

  lemma AppendAssoc(a: string, b: string, c: string)
    ensures a + (b + c) == (a + b) + c
  {
  }

  /** Cut after a code point that is not whitespace, the two halves
      collapse separately. */
  lemma {:induction false} CollapseSplit(x: string, y: string)
    requires |x| > 0 ==> !IsJsSpace(x[|x| - 1])
    ensures Collapse(x + y) == Collapse(x) + Collapse(y)
    decreases |x|
  {
    if |x| == 0 {
      assert x + y == y;
    } else if IsJsSpace(x[0]) {
      var t := TrimStart(x[1..]);
      TrimStartKeepsLast(x[1..]);
      CollapseSplit(t, y);
      CollapseSpaceHead(x, y);
      assert Collapse(x) == [' '] + Collapse(t);
      AppendAssoc([' '], Collapse(t), Collapse(y));
    } else {
      CollapseSplit(x[1..], y);
      CollapseWordHead(x, y);
      assert Collapse(x) == [x[0]] + Collapse(x[1..]);
      AppendAssoc([x[0]], Collapse(x[1..]), Collapse(y));
    }
  }

  /** Between two words, a whitespace run of any length and kind becomes
      exactly one space. */
  lemma CollapseRunsToOneSpace(x: string, w: string, y: string)
    requires |x| > 0 && !IsJsSpace(x[|x| - 1])
    requires |w| > 0 && forall i :: 0 <= i < |w| ==> IsJsSpace(w[i])
    requires |y| > 0 && !IsJsSpace(y[0])
    ensures Collapse(x + w + y) == Collapse(x) + [' '] + Collapse(y)
  {
    var s := x + w + y;
    assert s == x + (w + y);
    CollapseSplit(x, w + y);
    CollapseRun(w, y);
    assert Collapse(s) == Collapse(x) + ([' '] + Collapse(y));
  }

  // ----------------------------------------------- the stages before collapsing

  /** Decomposition works code point by code point. */
  lemma {:induction false} NfdAppend(a: string, b: string)
    ensures |a| == 1 ==> Nfd(a) == Decompose(a[0])
    ensures Nfd(a + b) == Nfd(a) + Nfd(b)
    decreases |a|
  {
    if |a| == 0 {
      assert a + b == b;
    } else {
      assert (a + b)[0] == a[0] && (a + b)[1..] == a[1..] + b;
      NfdAppend(a[1..], b);
    }
  }

  /** Removing the marks works code point by code point. */
  lemma {:induction false} StripMarksAppend(a: string, b: string)
    ensures |a| == 1 ==> StripMarks(a) == if IsMark(a[0]) then [] else a
    ensures StripMarks(a + b) == StripMarks(a) + StripMarks(b)
    decreases |a|
  {
    if |a| == 0 {
      assert a + b == b;
    } else {
      assert (a + b)[0] == a[0] && (a + b)[1..] == a[1..] + b;
      StripMarksAppend(a[1..], b);
    }
  }

  /** Lower-casing and separator mapping work code point by code point. */
  lemma PositionwiseAppend(a: string, b: string)
    ensures ToLower(a + b) == ToLower(a) + ToLower(b)
    ensures MapSeparators(a + b) == MapSeparators(a) + MapSeparators(b)
  {
  }

  /** So do all four stages before whitespace is collapsed. */
  lemma PrepareAppend(a: string, b: string)
    ensures Prepare(a + b) == Prepare(a) + Prepare(b)
  {
    var la, lb := ToLower(a), ToLower(b);
    PositionwiseAppend(a, b);
    NfdAppend(la, lb);
    var na, nb := Nfd(la), Nfd(lb);
    StripMarksAppend(na, nb);
    var x, y := StripMarks(na), StripMarks(nb);
    PositionwiseAppend(x, y);
    assert Prepare(a + b) == MapSeparators(x + y);
  }

  // ------------------------------------------------------------ insensitivity

  /** What a code point counts as in an answer: its lower-case form without
      its accent, with `-` and `_` counted as a space. */
  function Fold(c: char): char {
    var l := LowerChar(c);
    if Decomposable(l) then Decompose(l)[0]
    else if l == '-' || l == '_' then ' '
    else l
  }

  /** The first four stages on one code point. */
  lemma PrepareOne(c: char)
    ensures Prepare([c]) == MapSeparators(StripMarks(Decompose(LowerChar(c))))
  {
    assert ToLower([c]) == [LowerChar(c)];
    NfdAppend([LowerChar(c)], []);
  }

  /** Removing the mark of a decomposition leaves the base letter. */
  lemma StripOne(l: char)
    ensures StripMarks(Decompose(l)) ==
      if Decomposable(l) then [Decompose(l)[0]] else if IsMark(l) then [] else [l]
  {
    DecomposeShape(l);
    var d := Decompose(l);
    if Decomposable(l) {
      assert d == [d[0]] + [d[1]];
      StripMarksAppend([d[0]], [d[1]]);
      StripMarksAppend([d[1]], []);
    } else {
      StripMarksAppend([l], []);
    }
  }

  /** The first four stages treat a code point as its folded form. */
  lemma FoldAbsorbed(c: char)
    ensures Prepare([c]) == Prepare([Fold(c)])
  {
    var l, f := LowerChar(c), Fold(c);
    DecomposeShape(l);
    assert LowerChar(f) == f && !Decomposable(f);
    PrepareOne(c);
    PrepareOne(f);
    StripOne(l);
    StripOne(f);
  }

  lemma {:induction false} PrepareFolds(s: string, t: string)
    requires |s| == |t| && forall i :: 0 <= i < |s| ==> Fold(s[i]) == Fold(t[i])
    ensures Prepare(s) == Prepare(t)
    decreases |s|
  {
    if |s| > 0 {
      assert s == [s[0]] + s[1..] && t == [t[0]] + t[1..];
      PrepareAppend([s[0]], s[1..]);
      PrepareAppend([t[0]], t[1..]);
      FoldAbsorbed(s[0]);
      FoldAbsorbed(t[0]);
      PrepareFolds(s[1..], t[1..]);
    }
  }

  /** Case, accents and the choice between `-`, `_` and a space do not
      matter: two answers that agree code point by code point once folded
      normalise alike. */
  lemma NormalizeInsensitive(s: string, t: string)
    requires |s| == |t| && forall i :: 0 <= i < |s| ==> Fold(s[i]) == Fold(t[i])
    ensures Normalize(s) == Normalize(t)
  {
    PrepareFolds(s, t);
  }

  /** Lower-case ASCII words separated by single spaces are normalised. */
  lemma LowerWordsNormalized(t: string)
    requires forall i :: 0 <= i < |t| ==> 'a' <= t[i] <= 'z' || t[i] == ' '
    requires |t| > 0 ==> t[0] != ' ' && t[|t| - 1] != ' '
    requires NoDoubleSpace(t)
    ensures IsNormalized(t)
  {
  }

  /** "saint etienne" is already normalised. */
  lemma SaintEtienneNormalized()
    ensures IsNormalized("saint etienne")
  {
    var t := "saint etienne";
    assert forall i :: 0 <= i < |t| ==> 'a' <= t[i] <= 'z' || t[i] == ' ';
    LowerWordsNormalized(t);
  }

  /** "Saint-Étienne" folds to "saint etienne" code point by code point. */
  lemma SaintEtienneFolds()
    ensures var s, t := "Saint-\U{00C9}tienne", "saint etienne";
      |s| == |t| && forall i :: 0 <= i < |s| ==> Fold(s[i]) == Fold(t[i])
  {
  }

  /** "Saint-Étienne" normalises to "saint etienne". */
  lemma NormalizeSaintEtienne()
    ensures Normalize("Saint-\U{00C9}tienne") == "saint etienne"
  {
    SaintEtienneFolds();
    NormalizeInsensitive("Saint-\U{00C9}tienne", "saint etienne");
    SaintEtienneNormalized();
    NormalizeFixesNormalized("saint etienne");
  }
}

=== FILE: rankings.dfy ===
/** `getRankings` of server.js: the players sorted by descending score with
    `Array.prototype.sort`, which is stable, so players with equal scores
    stay in join order; the rank is the position plus one. */
module Rankings {
  import opened RoomModel

  /** Scores never increase along `ps`. */
  predicate SortedByScore(ps: seq<Player>) {
    forall i, j :: 0 <= i < j < |ps| ==> ps[i].score >= ps[j].score
  }

  /** The players of `ps` whose score is `s`, in the order of `ps`. */
  function WithScore(ps: seq<Player>, s: int): seq<Player> {
    if |ps| == 0 then []
    else (if ps[0].score == s then [ps[0]] else []) + WithScore(ps[1..], s)
  }

  /** Puts `p` in front of the first player whose score does not exceed its
      own: `p` overtakes the lower scores and goes before the equal ones,
      which joined after it. */
  function Insert(p: Player, ps: seq<Player>): seq<Player> {
    if |ps| == 0 || p.score >= ps[0].score then [p] + ps
    else [ps[0]] + Insert(p, ps[1..])
  }

  /** Inserting adds exactly `p`. */
  lemma {:induction false} InsertPermutes(p: Player, ps: seq<Player>)
    ensures multiset(Insert(p, ps)) == multiset(ps) + multiset{p}
  {
    if |ps| > 0 && p.score < ps[0].score {
      InsertPermutes(p, ps[1..]);
      assert ps == [ps[0]] + ps[1..];
    }
  }

  /** Inserting keeps a sorted list sorted. */
  lemma {:induction false} InsertSorted(p: Player, ps: seq<Player>)
    requires SortedByScore(ps)
    ensures SortedByScore(Insert(p, ps))
  {
    if |ps| > 0 && p.score < ps[0].score {
      var t := Insert(p, ps[1..]);
      InsertSorted(p, ps[1..]);
      InsertPermutes(p, ps[1..]);
      forall k | 0 <= k < |t| ensures ps[0].score >= t[k].score {
        assert t[k] in multiset(ps[1..]) + multiset{p};
      }
    }
  }

  /** In a sorted list, `p` goes first among the players with its score and
      the other scores are untouched. */
  lemma {:induction false} InsertStable(p: Player, ps: seq<Player>, s: int)
    requires SortedByScore(ps)
    ensures WithScore(Insert(p, ps), s) == if p.score == s then [p] + WithScore(ps, s) else WithScore(ps, s)
  {
    var r := Insert(p, ps);
    if |ps| == 0 || p.score >= ps[0].score {
      assert r[1..] == ps;
    } else {
      InsertStable(p, ps[1..], s);
      assert r[1..] == Insert(p, ps[1..]);
    }
  }

  /** The order `players.sort((a, b) => b.score - a.score)` produces. */
  function SortByScore(ps: seq<Player>): seq<Player> {
    if |ps| == 0 then [] else Insert(ps[0], SortByScore(ps[1..]))
  }

  /** The sort is a permutation of the players. */
  lemma {:induction false} SortPermutes(ps: seq<Player>)
    ensures multiset(SortByScore(ps)) == multiset(ps)
  {
    if |ps| > 0 {
      SortPermutes(ps[1..]);
      InsertPermutes(ps[0], SortByScore(ps[1..]));
      assert ps == [ps[0]] + ps[1..];
    }
  }

  /** The sort orders by descending score. */
  lemma {:induction false} SortSorted(ps: seq<Player>)
    ensures SortedByScore(SortByScore(ps))
  {
    if |ps| > 0 {
      SortSorted(ps[1..]);
      InsertSorted(ps[0], SortByScore(ps[1..]));
    }
  }

  /** The sort keeps players of equal score in their original order. */
  lemma {:induction false} SortStable(ps: seq<Player>, s: int)
    ensures WithScore(SortByScore(ps), s) == WithScore(ps, s)
  {
    if |ps| > 0 {
      SortStable(ps[1..], s);
      SortSorted(ps[1..]);
      InsertStable(ps[0], SortByScore(ps[1..]), s);
    }
  }

  lemma SortByScoreFacts(ps: seq<Player>)
    ensures multiset(SortByScore(ps)) == multiset(ps)
    ensures SortedByScore(SortByScore(ps))
    ensures forall s :: WithScore(SortByScore(ps), s) == WithScore(ps, s)
  {
    SortPermutes(ps);
    SortSorted(ps);
    forall s ensures WithScore(SortByScore(ps), s) == WithScore(ps, s) {
      SortStable(ps, s);
    }
  }

  /** A player of score `s` in a sorted list shows up in `WithScore(_, s)`,
      and the head of that list is the first such player. */
  lemma {:induction false} WithScoreHead(ps: seq<Player>, k: nat)
    requires k < |ps|
    ensures WithScore(ps, ps[k].score) != []
    ensures ps[0].score == ps[k].score ==> WithScore(ps, ps[k].score)[0] == ps[0]
  {
    if k > 0 {
      WithScoreHead(ps[1..], k - 1);
    }
  }

  /** The players of `WithScore(ps, s)` all have score `s` and come from `ps`. */
  lemma {:induction false} WithScoreMembers(ps: seq<Player>, s: int)
    ensures forall q :: q in WithScore(ps, s) ==> q.score == s && q in ps
  {
    if |ps| > 0 {
      WithScoreMembers(ps[1..], s);
    }
  }

  /** Only the empty list has no player of any score. */
  lemma NoScoresIffEmpty(ps: seq<Player>)
    ensures ps == [] <==> forall s :: WithScore(ps, s) == []
  {
    if ps != [] {
      assert WithScore(ps, ps[0].score) != [];
    }
  }

  /** Sortedness and stability determine the order completely: two sorted
      lists that agree on the players of every score, in order, are equal.
      So `SortByScore` is the only stable descending sort. */
  lemma {:induction false} StableSortUnique(a: seq<Player>, b: seq<Player>)
    requires SortedByScore(a) && SortedByScore(b)
    requires forall s :: WithScore(a, s) == WithScore(b, s)
    ensures a == b
  {
    NoScoresIffEmpty(a);
    NoScoresIffEmpty(b);
    if |a| == 0 || |b| == 0 {
    } else {
      var m, n := a[0].score, b[0].score;
      WithScoreHead(a, 0);
      WithScoreHead(b, 0);
      WithScoreMembers(a, n);
      WithScoreMembers(b, m);
      assert WithScore(a, n)[0] in a;
      assert WithScore(b, m)[0] in b;
      assert m == n;
      assert a[0] == b[0];
      forall s ensures WithScore(a[1..], s) == WithScore(b[1..], s) {
        var pre := if a[0].score == s then [a[0]] else [];
        assert WithScore(a, s) == pre + WithScore(a[1..], s);
        assert WithScore(b, s) == pre + WithScore(b[1..], s);
        assert (pre + WithScore(a[1..], s))[|pre|..] == WithScore(a[1..], s);
        assert (pre + WithScore(b[1..], s))[|pre|..] == WithScore(b[1..], s);
      }
      StableSortUnique(a[1..], b[1..]);
      assert a == [a[0]] + a[1..] && b == [b[0]] + b[1..];
    }
  }

  /** One entry of the rankings sent to the clients. */
  datatype Ranking = Ranking(playerId: string, playerName: string, score: int, rank: nat)

  /** `getRankings(room)` on the room's players in join order. */
  function GetRankings(ps: seq<Player>): (r: seq<Ranking>)
    ensures |r| == |ps|
    ensures forall i :: 0 <= i < |r| ==> r[i].rank == i + 1
    ensures forall i, j :: 0 <= i < j < |r| ==> r[i].score >= r[j].score
  {
    var sorted := SortByScore(ps);
    SortByScoreFacts(ps);
    assert |sorted| == |multiset(sorted)| == |ps|;
    seq(|sorted|, i requires 0 <= i < |sorted| => Ranking(sorted[i].id, sorted[i].name, sorted[i].score, i + 1))
  }

  /** Every player gets exactly one ranking entry carrying their own id, name
      and score, and players with equal scores are ranked in join order. */
  lemma RankingsListPlayers(ps: seq<Player>)
    ensures var r, sorted := GetRankings(ps), SortByScore(ps);
      && multiset(sorted) == multiset(ps)
      && (forall i :: 0 <= i < |r| ==>
            r[i].playerId == sorted[i].id && r[i].playerName == sorted[i].name && r[i].score == sorted[i].score)
      && (forall s :: WithScore(sorted, s) == WithScore(ps, s))
  {
    SortByScoreFacts(ps);
  }

  /** Scores 30, 80, 80, 10 in join order sort as 80, 80, 30, 10 with the
      two 80s in join order. */
  lemma TieSortsInJoinOrder(p1: Player, p2: Player, p3: Player, p4: Player)
    requires p1.score == 30 && p2.score == 80 && p3.score == 80 && p4.score == 10
    ensures SortByScore([p1, p2, p3, p4]) == [p2, p3, p1, p4]
  {
    var ps := [p1, p2, p3, p4];
    assert ps[1..] == [p2, p3, p4] && ps[1..][1..] == [p3, p4] && ps[1..][1..][1..] == [p4];
    assert [p4][1..] == [];
    assert Insert(p4, []) == [p4];
    assert Insert(p3, [p4]) == [p3, p4];
    assert Insert(p2, [p3, p4]) == [p2, p3, p4];
    assert Insert(p1, [p4]) == [p1, p4];
    assert Insert(p1, [p3, p4]) == [p3, p1, p4];
    assert Insert(p1, [p2, p3, p4]) == [p2, p3, p1, p4];
    assert SortByScore([p4]) == [p4];
    assert SortByScore([p3, p4]) == [p3, p4];
    assert SortByScore([p2, p3, p4]) == [p2, p3, p4];
  }

  /** ... and so rank the first 80 first, the second 80 second, then 30,
      then 10. */
  lemma TieKeepsJoinOrder(p1: Player, p2: Player, p3: Player, p4: Player)
    requires p1.score == 30 && p2.score == 80 && p3.score == 80 && p4.score == 10
    ensures GetRankings([p1, p2, p3, p4]) == [
      Ranking(p2.id, p2.name, 80, 1), Ranking(p3.id, p3.name, 80, 2),
      Ranking(p1.id, p1.name, 30, 3), Ranking(p4.id, p4.name, 10, 4)]
  {
    TieSortsInJoinOrder(p1, p2, p3, p4);
  }
}

=== FILE: room_code.dfy ===
/** `generateRoomCode` of server.js: six characters drawn uniformly from a
    32-letter alphabet without the look-alikes I, O, 0 and 1, redrawn until
    the code is not in use. The random draws are an explicit input. */
module RoomCode {
  import opened Wrappers
  import opened Text
  import Normalization

  const Alphabet: string := "ABCDEFGHJKLMNPQRSTUVWXYZ23456789"
  const CodeLength: nat := 6

  /** One `Math.floor(Math.random() * chars.length)`. */
  type Draw = d: int | 0 <= d < 32

  /** Upper-case letters and digits, none of them easy to confuse. */
  predicate CodeChar(c: char) {
    && (('A' <= c <= 'Z') || ('2' <= c <= '9'))
    && c != 'I' && c != 'O'
  }

  /** The shape of every code `generateRoomCode` returns. */
  predicate IsRoomCode(code: string) {
    |code| == CodeLength && forall i :: 0 <= i < |code| ==> CodeChar(code[i])
  }

  /** Every letter of the alphabet is a code character. */
  lemma AlphabetChars(d: Draw)
    ensures |Alphabet| == 32
    ensures CodeChar(Alphabet[d])
  {
  }

  /** The characters a sequence of draws picks. */
  function Spell(ds: seq<Draw>): (code: string)
    ensures |code| == |ds|
    ensures forall i :: 0 <= i < |ds| ==> CodeChar(code[i])
  {
    if |ds| == 0 then []
    else
      AlphabetChars(ds[0]);
      [Alphabet[ds[0]]] + Spell(ds[1..])
  }

  /** The `k`-th attempt of the do-while loop: draws `6k` to `6k + 5`. */
  function Attempt(draws: seq<Draw>, k: nat): string
    requires CodeLength * (k + 1) <= |draws|
  {
    Spell(draws[CodeLength * k..CodeLength * (k + 1)])
  }

  /** The do-while loop, one attempt per six draws; `None` when the draws run
      out before a free code comes up (the source keeps drawing). */
  function GenerateRoomCode(taken: set<string>, draws: seq<Draw>): (r: Option<string>)
    ensures r.Some? ==> IsRoomCode(r.value) && r.value !in taken
    decreases |draws|
  {
    if |draws| < CodeLength then None
    else
      var code := Spell(draws[..CodeLength]);
      if code !in taken then Some(code)
      else GenerateRoomCode(taken, draws[CodeLength..])
  }

  /** Dropping the first attempt shifts the others down by one. */
  lemma AttemptShift(draws: seq<Draw>, k: nat)
    requires CodeLength * (k + 2) <= |draws|
    ensures Attempt(draws[CodeLength..], k) == Attempt(draws, k + 1)
  {
    assert draws[CodeLength..][CodeLength * k..CodeLength * (k + 1)] == draws[CodeLength * (k + 1)..CodeLength * (k + 2)];
  }

  /** The loop finds no code exactly when every attempt the draws allow is
      taken. */
  lemma {:induction false} GenerateNoneIffAllTaken(taken: set<string>, draws: seq<Draw>)
    ensures GenerateRoomCode(taken, draws).None? <==>
      forall k: nat :: CodeLength * (k + 1) <= |draws| ==> Attempt(draws, k) in taken
    decreases |draws|
  {
    if |draws| >= CodeLength {
      var rest := draws[CodeLength..];
      assert Attempt(draws, 0) == Spell(draws[..CodeLength]);
      GenerateNoneIffAllTaken(taken, rest);
      if GenerateRoomCode(taken, draws).None? {
        forall k: nat | CodeLength * (k + 1) <= |draws| ensures Attempt(draws, k) in taken {
          if k > 0 {
            AttemptShift(draws, k - 1);
          }
        }
      } else if Spell(draws[..CodeLength]) in taken {
        var k: nat :| CodeLength * (k + 1) <= |rest| && Attempt(rest, k) !in taken;
        AttemptShift(draws, k);
      }
    }
  }

  /** A code that is found is the first free attempt: every earlier attempt
      drew a code already in use. */
  lemma {:induction false} GenerateFindsFirstFree(taken: set<string>, draws: seq<Draw>) returns (j: nat)
    requires GenerateRoomCode(taken, draws).Some?
    ensures CodeLength * (j + 1) <= |draws| && GenerateRoomCode(taken, draws).value == Attempt(draws, j)
    ensures forall i: nat :: i < j ==> Attempt(draws, i) in taken
    decreases |draws|
  {
    var rest := draws[CodeLength..];
    assert Attempt(draws, 0) == Spell(draws[..CodeLength]);
    if Spell(draws[..CodeLength]) !in taken {
      j := 0;
    } else {
      var j' := GenerateFindsFirstFree(taken, rest);
      AttemptShift(draws, j');
      j := j' + 1;
      forall i: nat | i < j ensures Attempt(draws, i) in taken {
        if i > 0 {
          AttemptShift(draws, i - 1);
        }
      }
    }
  }

  /** A room code reads the same upper-cased, and so does its lower-case
      spelling: `joinRoom` finds the room whichever case the player types. */
  lemma RoomCodeCaseInsensitive(code: string)
    requires IsRoomCode(code)
    ensures ToUpper(code) == code
    ensures ToUpper(Normalization.ToLower(code)) == code
  {
    var lowered := Normalization.ToLower(code);
    forall i | 0 <= i < |code| ensures UpperChar(lowered[i]) == code[i] {
      assert CodeChar(code[i]);
    }
  }
}

=== FILE: room_types.dfy ===
/** The in-memory state of a multiplayer room of server.js: the room record
    created by `createRoom`, its players (a JavaScript `Map` keyed by socket
    id, kept here as an insertion-ordered sequence with unique ids) and the
    per-game bookkeeping. */
module RoomModel {
  import opened Wrappers

  datatype Status = Waiting | Playing | Finished

  /** A positive number of seconds. */
  type Seconds = t: int | 0 < t witness 10

  /** `room.settings`; `timePerQuestion` is in seconds. */
  datatype Settings = Settings(themes: seq<string>, questionCount: int, timePerQuestion: Seconds)

  /** One quiz question as loaded from the data files, tagged with its theme. */
  datatype Question = Question(prompt: string, answer: string, theme: string)

  /** One entry of `player.answers`. */
  datatype AnswerRecord = AnswerRecord(
    questionIndex: int,
    question: string,
    userAnswer: string,
    correctAnswer: string,
    isCorrect: bool,
    points: int,
    responseTime: int)

  datatype Player = Player(id: string, name: string, score: int, isHost: bool, answers: seq<AnswerRecord>)

  /** `room.game`. `questionStart` is `questionStartTime` (`null` until the
      first question is sent); `timer` is `Some(timeLeft)` while the
      per-question interval is running and `None` once it is cleared. */
  datatype Game = Game(
    questions: seq<Question>,
    currentIndex: nat,
    questionStart: Option<int>,
    answered: set<string>,
    timer: Option<int>)

  datatype Room = Room(code: string, hostId: string, status: Status, settings: Settings, players: seq<Player>, game: Game)

  /** The key of a `Map` is unique. */
  predicate UniqueIds(ps: seq<Player>) {
    forall i, j :: 0 <= i < j < |ps| ==> ps[i].id != ps[j].id
  }

  /** The position of the player with socket id `id`, if any (`players.get`). */
  function IndexOf(ps: seq<Player>, id: string): (r: Option<nat>)
    ensures r.Some? ==> r.value < |ps| && ps[r.value].id == id
    ensures r.Some? ==> forall k :: 0 <= k < r.value ==> ps[k].id != id
    ensures r.None? ==> forall k :: 0 <= k < |ps| ==> ps[k].id != id
  {
    if |ps| == 0 then None
    else if ps[0].id == id then Some(0)
    else
      match IndexOf(ps[1..], id)
      case None => None
      case Some(k) => Some(k + 1)
  }

  predicate HasPlayer(ps: seq<Player>, id: string) {
    IndexOf(ps, id).Some?
  }

  /** With unique ids, the player found is the only one with that id. */
  lemma IndexOfUnique(ps: seq<Player>, id: string, k: nat)
    requires UniqueIds(ps) && k < |ps| && ps[k].id == id
    ensures IndexOf(ps, id) == Some(k)
  {
  }

  /** `players.set(p.id, p)`: an existing entry is replaced where it stands,
      a new one goes to the end. */
  function SetPlayer(ps: seq<Player>, p: Player): (r: seq<Player>)
    ensures HasPlayer(ps, p.id) ==> |r| == |ps|
    ensures !HasPlayer(ps, p.id) ==> |r| == |ps| + 1 && r[|ps|] == p
    ensures p in r
    ensures forall k :: 0 <= k < |ps| && ps[k].id != p.id ==> r[k] == ps[k]
    ensures forall q :: q in r ==> q == p || q in ps
    ensures UniqueIds(ps) ==> UniqueIds(r)
  {
    match IndexOf(ps, p.id)
    case Some(k) =>
      var r := ps[k := p];
      assert r[k] == p;
      r
    case None => ps + [p]
  }

  /** `players.delete(id)`: the entry leaves, the others keep their order. */
  function RemovePlayer(ps: seq<Player>, id: string): (r: seq<Player>)
    ensures HasPlayer(ps, id) ==> |r| == |ps| - 1
    ensures !HasPlayer(ps, id) ==> r == ps
    ensures forall q :: q in ps && q.id != id ==> q in r
    ensures forall q :: q in r ==> q in ps
    ensures UniqueIds(ps) ==> UniqueIds(r) && forall k :: 0 <= k < |r| ==> r[k].id != id
  {
    match IndexOf(ps, id)
    case Some(k) => ps[..k] + ps[k + 1..]
    case None => ps
  }

  /** The points of a list of answer records, added up. */
  function TotalPoints(answers: seq<AnswerRecord>): int {
    if |answers| == 0 then 0
    else TotalPoints(answers[..|answers| - 1]) + answers[|answers| - 1].points
  }

  lemma TotalPointsAppend(answers: seq<AnswerRecord>, a: AnswerRecord)
    ensures TotalPoints(answers + [a]) == TotalPoints(answers) + a.points
  {
    assert (answers + [a])[..|answers|] == answers;
  }

  /** Every score is the sum of the points in the player's answer log. */
  predicate ScoresMatchLogs(ps: seq<Player>) {
    forall k :: 0 <= k < |ps| ==> ps[k].score == TotalPoints(ps[k].answers)
  }

  /** A player flagged as host is the one `hostId` names. */
  predicate HostFlagsAgree(room: Room) {
    forall k :: 0 <= k < |room.players| && room.players[k].isHost ==> room.players[k].id == room.hostId
  }

  /** What every handler keeps true of a room it leaves in the registry. */
  predicate Valid(room: Room) {
    && |room.players| > 0
    && UniqueIds(room.players)
    && HostFlagsAgree(room)
    && ScoresMatchLogs(room.players)
    && room.game.currentIndex <= |room.game.questions|
  }

  /** The registry `rooms`: every room is filed under its own code. */
  predicate RegistryValid(rooms: map<string, Room>) {
    forall code :: code in rooms ==> rooms[code].code == code && Valid(rooms[code])
  }

  /** Filing a valid room under its own code keeps the registry valid. */
  lemma FileRoom(rooms: map<string, Room>, room: Room)
    ensures RegistryValid(rooms) && Valid(room) ==> RegistryValid(rooms[room.code := room])
  {
  }
}

=== FILE: rooms.dfy ===
/** The socket handlers and timer callbacks of server.js as transitions of
    the room registry. Node runs each of them to completion, so each is one
    atomic step from a registry to a registry. A step also reports what the
    handler did: finished (with the `setTimeout` callbacks it scheduled),
    returned early, answered with an `error` message, or threw a TypeError
    that nothing catches. */
module Rooms {
  import opened Wrappers
  import opened Text
  import opened RoomModel
  import opened Matcher
  import opened Scoring

  const CountdownMs: nat := 3000
  const EarlyEndDelayMs: nat := 500
  const BetweenQuestionsMs: nat := 2000
  const CleanupDelayMs: nat := 5 * 60 * 1000
  const MinPlayers: nat := 2
  const DefaultThemes: seq<string> := ["capitals"]
  const DefaultQuestionCount: int := 10
  const DefaultTimePerQuestion: Seconds := 10
  const NoAnswerText: string := "(Pas de r\U{00E9}ponse)"

  /** The functions handed to `setTimeout`. */
  datatype Callback = NextQuestionDue | EndQuestionDue | EndGameDue | CleanupDue

  datatype Timeout = Timeout(delayMs: nat, callback: Callback, roomCode: string)

  /** The `error` messages a handler sends back. */
  datatype Refusal =
    | RoomNotFound        // 'Salle introuvable'
    | GameAlreadyStarted  // 'La partie a déjà commencé'
    | NotHost             // 'Seul l'hôte peut lancer la partie'
    | NotEnoughPlayers    // 'Il faut au moins 2 joueurs'
    | NoQuestions

  datatype Outcome =
    | Done(timeouts: seq<Timeout>)
    | Ignored
    | Refused(reason: Refusal)
    | Crashed

  datatype Step = Step(rooms: map<string, Room>, outcome: Outcome)

  /** Every room filed under another code than `code` is untouched. */
  ghost predicate OthersUnchanged(before: map<string, Room>, after: map<string, Room>, code: string) {
    forall c :: c != code ==> (c in after <==> c in before) && (c in after ==> after[c] == before[c])
  }

  // ---------------------------------------------------------------- createRoom

  /** `settings.questionCount || 10`: a missing count and 0 both become 10. */
  function InitialQuestionCount(questionCount: Option<int>): (n: int)
    ensures n == DefaultQuestionCount <==> questionCount.None? || questionCount == Some(0) || questionCount == Some(DefaultQuestionCount)
    ensures n != DefaultQuestionCount ==> questionCount == Some(n)
  {
    match questionCount
    case Some(n) => if n == 0 then DefaultQuestionCount else n
    case None => DefaultQuestionCount
  }

  /** `createRoom`: a waiting room under the fresh code `code` with the sender
      as its only player and host. A missing theme list becomes
      `['capitals']`; an empty one is kept. */
  function CreateRoom(rooms: map<string, Room>, sender: string, hostName: string,
                      themes: Option<seq<string>>, questionCount: Option<int>, code: string): (s: Step)
    requires code !in rooms
    ensures s.outcome == Done([])
    ensures s.rooms.Keys == rooms.Keys + {code}
    ensures OthersUnchanged(rooms, s.rooms, code)
    ensures var r := s.rooms[code];
      && r.code == code && r.hostId == sender && r.status == Waiting
      && r.players == [Player(sender, hostName, 0, true, [])]
      && r.settings.themes == (if themes.Some? then themes.value else DefaultThemes)
      && r.settings.questionCount == InitialQuestionCount(questionCount)
      && r.settings.timePerQuestion == DefaultTimePerQuestion
      && r.game == Game([], 0, None, {}, None)
    ensures RegistryValid(rooms) ==> RegistryValid(s.rooms)
  {
    var settings := Settings(themes.GetOr(DefaultThemes), InitialQuestionCount(questionCount), DefaultTimePerQuestion);
    var room := Room(code, sender, Waiting, settings, [Player(sender, hostName, 0, true, [])], Game([], 0, None, {}, None));
    Step(rooms[code := room], Done([]))
  }

  // ------------------------------------------------------------------ joinRoom

  /** `joinRoom`: the code is looked up upper-cased; only a waiting room
      admits players. The newcomer is never host, and a socket that is
      already in the room is replaced in place with a fresh entry. */
  function JoinRoom(rooms: map<string, Room>, sender: string, roomCode: string, playerName: string): (s: Step)
    ensures var key := ToUpper(roomCode);
      && (key !in rooms ==> s == Step(rooms, Refused(RoomNotFound)))
      && (key in rooms && rooms[key].status != Waiting ==> s == Step(rooms, Refused(GameAlreadyStarted)))
      && (key in rooms && rooms[key].status == Waiting ==>
            && s.outcome == Done([])
            && s.rooms.Keys == rooms.Keys
            && OthersUnchanged(rooms, s.rooms, key)
            && var before, after := rooms[key], s.rooms[key];
            && after == before.(players := after.players)
            && after.players == SetPlayer(before.players, Player(sender, playerName, 0, false, []))
            && Player(sender, playerName, 0, false, []) in after.players
            && (forall q :: q in before.players && q.id != sender ==> q in after.players)
            && (forall q :: q in after.players && q.id != sender ==> q in before.players)
            && (|after.players| == |before.players| + 1 <==> !HasPlayer(before.players, sender)))
    ensures RegistryValid(rooms) ==> RegistryValid(s.rooms)
  {
    var key := ToUpper(roomCode);
    if key !in rooms then Step(rooms, Refused(RoomNotFound))
    else
      var room := rooms[key];
      if room.status != Waiting then Step(rooms, Refused(GameAlreadyStarted))
      else
        var newcomer := Player(sender, playerName, 0, false, []);
        var players := SetPlayer(room.players, newcomer);
        AdmitKeepsValid(room, newcomer);
        FileRoom(rooms, room.(players := players));
        Step(rooms[key := room.(players := players)], Done([]))
  }

  /** Admitting a fresh non-host player keeps a room valid. */
  lemma AdmitKeepsValid(room: Room, newcomer: Player)
    requires !newcomer.isHost && newcomer.score == 0 && newcomer.answers == []
    ensures Valid(room) ==> Valid(room.(players := SetPlayer(room.players, newcomer)))
  {
    var players := SetPlayer(room.players, newcomer);
    forall k | 0 <= k < |players|
      ensures players[k] == newcomer || players[k] in room.players
    {
      assert players[k] in players;
    }
  }

  /** A host who joins their own room again is replaced by a plain player:
      `hostId` still names them but nobody in the room is flagged as host. */
  lemma HostRejoinLosesFlag(rooms: map<string, Room>, roomCode: string, name: string)
    requires roomCode in rooms && ToUpper(roomCode) == roomCode && rooms[roomCode].status == Waiting
    requires RegistryValid(rooms)
    ensures var after := JoinRoom(rooms, rooms[roomCode].hostId, roomCode, name).rooms[roomCode];
      && after.hostId == rooms[roomCode].hostId
      && HasPlayer(after.players, after.hostId)
      && forall k :: 0 <= k < |after.players| ==> !after.players[k].isHost
  {
    var before := rooms[roomCode];
    var after := JoinRoom(rooms, before.hostId, roomCode, name).rooms[roomCode];
    var newcomer := Player(before.hostId, name, 0, false, []);
    forall k | 0 <= k < |after.players| ensures !after.players[k].isHost {
      assert after.players[k] in after.players;
      if after.players[k] != newcomer {
        assert after.players[k] in before.players;
      }
    }
    assert newcomer in after.players;
    var j :| 0 <= j < |after.players| && after.players[j] == newcomer;
    assert after.players[j].id == after.hostId;
  }

  // ------------------------------------------------------------ updateSettings

  /** The keys present in the `settings` object of an `updateSettings`
      message; `None` is a key that is absent. */
  datatype SettingsPatch = SettingsPatch(themes: Option<seq<string>>, questionCount: Option<int>, timePerQuestion: Option<Seconds>)

  /** `{ ...room.settings, ...settings }`: a key of the patch wins. */
  function Merge(s: Settings, patch: SettingsPatch): (r: Settings)
    ensures patch.themes.Some? ==> r.themes == patch.themes.value
    ensures patch.themes.None? ==> r.themes == s.themes
    ensures patch.questionCount.Some? ==> r.questionCount == patch.questionCount.value
    ensures patch.questionCount.None? ==> r.questionCount == s.questionCount
    ensures patch.timePerQuestion.Some? ==> r.timePerQuestion == patch.timePerQuestion.value
    ensures patch.timePerQuestion.None? ==> r.timePerQuestion == s.timePerQuestion
  {
    Settings(patch.themes.GetOr(s.themes), patch.questionCount.GetOr(s.questionCount), patch.timePerQuestion.GetOr(s.timePerQuestion))
  }

  /** Spreading the same patch twice is spreading it once, and an empty
      patch changes nothing. */
  lemma MergeLaws(s: Settings, patch: SettingsPatch)
    ensures Merge(Merge(s, patch), patch) == Merge(s, patch)
    ensures Merge(s, SettingsPatch(None, None, None)) == s
  {
  }

  /** `updateSettings`: only the host may change the settings, in any status;
      everyone else is ignored without an answer. */
  function UpdateSettings(rooms: map<string, Room>, sender: string, roomCode: string, patch: SettingsPatch): (s: Step)
    ensures roomCode !in rooms || rooms[roomCode].hostId != sender ==> s == Step(rooms, Ignored)
    ensures roomCode in rooms && rooms[roomCode].hostId == sender ==>
      && s.outcome == Done([])
      && s.rooms.Keys == rooms.Keys
      && OthersUnchanged(rooms, s.rooms, roomCode)
      && s.rooms[roomCode] == rooms[roomCode].(settings := Merge(rooms[roomCode].settings, patch))
    ensures RegistryValid(rooms) ==> RegistryValid(s.rooms)
  {
    if roomCode !in rooms || rooms[roomCode].hostId != sender then Step(rooms, Ignored)
    else
      var room := rooms[roomCode];
      Step(rooms[roomCode := room.(settings := Merge(room.settings, patch))], Done([]))
  }

  // ----------------------------------------------------------------- startGame

  /** Scores and answer logs back to zero, everything else kept. */
  function ResetScores(ps: seq<Player>): (r: seq<Player>)
    ensures |r| == |ps|
    ensures forall k :: 0 <= k < |ps| ==> r[k] == ps[k].(score := 0, answers := [])
  {
    seq(|ps|, k requires 0 <= k < |ps| => ps[k].(score := 0, answers := []))
  }

  /** `startGame` with the question list `getQuestionsForThemes` drew. Only
      the host may start, with at least two players; the first question
      follows a 3 s countdown. The status is not checked, so a running or
      finished game can be restarted. An empty question list is refused
      (see `Findings.StartGameAsWritten` for the code as written). */
  function StartGame(rooms: map<string, Room>, sender: string, roomCode: string, questions: seq<Question>): (s: Step)
    ensures roomCode !in rooms || rooms[roomCode].hostId != sender ==> s == Step(rooms, Refused(NotHost))
    ensures roomCode in rooms && rooms[roomCode].hostId == sender && |rooms[roomCode].players| < MinPlayers ==>
      s == Step(rooms, Refused(NotEnoughPlayers))
    ensures roomCode in rooms && rooms[roomCode].hostId == sender && |rooms[roomCode].players| >= MinPlayers && |questions| == 0 ==>
      s == Step(rooms, Refused(NoQuestions))
    ensures roomCode in rooms && rooms[roomCode].hostId == sender && |rooms[roomCode].players| >= MinPlayers && |questions| > 0 ==>
      && s.outcome == Done([Timeout(CountdownMs, NextQuestionDue, roomCode)])
      && s.rooms.Keys == rooms.Keys
      && OthersUnchanged(rooms, s.rooms, roomCode)
      && var before, after := rooms[roomCode], s.rooms[roomCode];
      && after.status == Playing
      && after.game == before.game.(questions := questions, currentIndex := 0)
      && after == before.(status := after.status, game := after.game, players := after.players)
      && |after.players| == |before.players|
      && forall k :: 0 <= k < |after.players| ==>
           after.players[k].score == 0 && after.players[k].answers == [] &&
           after.players[k] == before.players[k].(score := 0, answers := [])
    ensures RegistryValid(rooms) ==> RegistryValid(s.rooms)
  {
    if roomCode !in rooms || rooms[roomCode].hostId != sender then Step(rooms, Refused(NotHost))
    else
      var room := rooms[roomCode];
      if |room.players| < MinPlayers then Step(rooms, Refused(NotEnoughPlayers))
      else if |questions| == 0 then Step(rooms, Refused(NoQuestions))
      else
        var game := room.game.(questions := questions, currentIndex := 0);
        var room' := room.(status := Playing, game := game, players := ResetScores(room.players));
        Step(rooms[roomCode := room'], Done([Timeout(CountdownMs, NextQuestionDue, roomCode)]))
  }

  // --------------------------------------------------------------- submitAnswer

  /** A question is open from `sendNextQuestion` until its interval is
      cleared: it has been sent, it exists, and its timer runs. */
  predicate QuestionOpen(g: Game) {
    g.timer.Some? && g.questionStart.Some? && g.currentIndex < |g.questions|
  }

  /** Every player still in the room has answered. */
  predicate AllAnswered(ps: seq<Player>, answered: set<string>) {
    forall k :: 0 <= k < |ps| ==> ps[k].id in answered
  }

  /** The record `submitAnswer` appends for an answer to the current
      question given `responseTime` ms after it was sent, and the points it
      earns. */
  function Grade(room: Room, answer: string, responseTime: int): (rec: AnswerRecord)
    requires room.game.currentIndex < |room.game.questions|
    ensures var q := room.game.questions[room.game.currentIndex];
      && rec.questionIndex == room.game.currentIndex
      && rec.question == q.prompt && rec.userAnswer == answer && rec.correctAnswer == q.answer
      && rec.isCorrect == CheckAnswer(answer, q.answer)
      && rec.responseTime == responseTime
      && (rec.isCorrect ==> BasePoints <= rec.points)
      && (!rec.isCorrect ==> rec.points == 0)
      && (0 <= responseTime ==> rec.points <= BasePoints + MaxBonus)
      && rec.points == CalculatePoints(rec.isCorrect, responseTime, room.settings.timePerQuestion * 1000)
  {
    var q := room.game.questions[room.game.currentIndex];
    var isCorrect := CheckAnswer(answer, q.answer);
    var points := CalculatePoints(isCorrect, responseTime, room.settings.timePerQuestion * 1000);
    AnswerRecord(room.game.currentIndex, q.prompt, answer, q.answer, isCorrect, points, responseTime)
  }

  /** `Date.now() - questionStartTime`; JavaScript reads a `null` start as 0. */
  function Elapsed(g: Game, now: int): int {
    now - g.questionStart.GetOr(0)
  }

  /** The record of an answer to the open question submitted at `now`. */
  function Judge(room: Room, answer: string, now: int): (rec: AnswerRecord)
    requires QuestionOpen(room.game)
    ensures rec.questionIndex == room.game.currentIndex
    ensures rec.responseTime == now - room.game.questionStart.value
    ensures rec.points == 0 || BasePoints <= rec.points
  {
    Grade(room, answer, Elapsed(room.game, now))
  }

  /** The player at `k` with one more answer and its points added. */
  function Credit(ps: seq<Player>, k: nat, rec: AnswerRecord): (r: seq<Player>)
    requires k < |ps|
    ensures |r| == |ps|
    ensures r[k].answers == ps[k].answers + [rec] && r[k].score == ps[k].score + rec.points
    ensures r[k] == ps[k].(score := r[k].score, answers := r[k].answers)
    ensures forall j :: 0 <= j < |ps| && j != k ==> r[j] == ps[j]
    ensures UniqueIds(ps) ==> UniqueIds(r)
    ensures ScoresMatchLogs(ps) ==> ScoresMatchLogs(r)
  {
    TotalPointsAppend(ps[k].answers, rec);
    ps[k := ps[k].(score := ps[k].score + rec.points, answers := ps[k].answers + [rec])]
  }

  /** The room once player `k` has answered an open question: the record
      `rec` is logged and its points added, the player counts as answered, and the interval is
      cleared once every player still in the room has answered. */
  function Accept(room: Room, k: nat, rec: AnswerRecord): (r: Room)
    requires k < |room.players| && room.game.timer.Some?
    ensures r == room.(players := r.players, game := room.game.(answered := r.game.answered, timer := r.game.timer))
    ensures r.game.answered == room.game.answered + {room.players[k].id}
    ensures r.game.timer.None? <==> AllAnswered(r.players, r.game.answered)
    ensures r.game.timer.Some? ==> r.game.timer == room.game.timer
    ensures |r.players| == |room.players|
    ensures r.players[k] == room.players[k].(score := r.players[k].score, answers := r.players[k].answers)
    ensures r.players[k].answers == room.players[k].answers + [rec]
    ensures r.players[k].score == room.players[k].score + rec.points
    ensures forall j :: 0 <= j < |room.players| && j != k ==> r.players[j] == room.players[j]
  {
    var players := Credit(room.players, k, rec);
    var answered := room.game.answered + {room.players[k].id};
    var timer := if AllAnswered(players, answered) then None else room.game.timer;
    room.(players := players, game := room.game.(answered := answered, timer := timer))
  }

  /** Taking an answer keeps a room valid: in particular the player's score
      is still the sum of their logged points. */
  lemma AcceptKeepsValid(room: Room, k: nat, rec: AnswerRecord)
    requires k < |room.players| && room.game.timer.Some?
    ensures Valid(room) ==> Valid(Accept(room, k, rec))
  {
    var players := Credit(room.players, k, rec);
    assert Accept(room, k, rec).players == players;
    assert HostFlagsAgree(room) ==> HostFlagsAgree(room.(players := players)) by {
      forall j | 0 <= j < |players| && players[j].isHost && HostFlagsAgree(room) ensures players[j].id == room.hostId {
        assert room.players[j].isHost;
      }
    }
  }

  /** `submitAnswer`, with the guard the code leaves out: an answer is taken
      only while the current question is open, and the question ends early
      once every player still in the room has answered (see
      `Findings.SubmitAnswerAsWritten` for the code as written). */
  function SubmitAnswer(rooms: map<string, Room>, sender: string, roomCode: string, answer: string, now: int): (s: Step)
    ensures s.outcome != Crashed
    ensures (|| roomCode !in rooms || rooms[roomCode].status != Playing
             || !HasPlayer(rooms[roomCode].players, sender) || sender in rooms[roomCode].game.answered
             || !QuestionOpen(rooms[roomCode].game)) ==> s == Step(rooms, Ignored)
    ensures (&& roomCode in rooms && rooms[roomCode].status == Playing
             && HasPlayer(rooms[roomCode].players, sender) && sender !in rooms[roomCode].game.answered
             && QuestionOpen(rooms[roomCode].game)) ==> s.outcome.Done?
    ensures s.outcome.Done? ==>
      && roomCode in rooms && HasPlayer(rooms[roomCode].players, sender) && QuestionOpen(rooms[roomCode].game)
      && s.rooms == rooms[roomCode := Accept(rooms[roomCode], IndexOf(rooms[roomCode].players, sender).value, Judge(rooms[roomCode], answer, now))]
      && (s.outcome.timeouts == [Timeout(EarlyEndDelayMs, EndQuestionDue, roomCode)] <==> s.rooms[roomCode].game.timer.None?)
      && (s.outcome.timeouts == [] <==> s.rooms[roomCode].game.timer.Some?)
  {
    if roomCode !in rooms || rooms[roomCode].status != Playing then Step(rooms, Ignored)
    else
      var room := rooms[roomCode];
      match IndexOf(room.players, sender)
      case None => Step(rooms, Ignored)
      case Some(k) =>
        if sender in room.game.answered || !QuestionOpen(room.game) then Step(rooms, Ignored)
        else
          var room' := Accept(room, k, Judge(room, answer, now));
          var timeouts := if room'.game.timer.None? then [Timeout(EarlyEndDelayMs, EndQuestionDue, roomCode)] else [];
          Step(rooms[roomCode := room'], Done(timeouts))
  }

  /** An accepted answer keeps the registry valid: in particular every
      score is still the sum of the player's logged points. */
  lemma SubmitAnswerKeepsValid(rooms: map<string, Room>, sender: string, roomCode: string, answer: string, now: int)
    requires RegistryValid(rooms)
    ensures RegistryValid(SubmitAnswer(rooms, sender, roomCode, answer, now).rooms)
  {
    var s := SubmitAnswer(rooms, sender, roomCode, answer, now);
    if s.outcome.Done? {
      var room := rooms[roomCode];
      AcceptKeepsValid(room, IndexOf(room.players, sender).value, Judge(room, answer, now));
      FileRoom(rooms, s.rooms[roomCode]);
    }
  }

  /** An accepted answer leaves the question open while another player of
      the room has not answered it ... */
  lemma SubmitAnswerWaitsForOthers(rooms: map<string, Room>, sender: string, roomCode: string, answer: string, now: int, other: string)
    requires roomCode in rooms && rooms[roomCode].status == Playing && QuestionOpen(rooms[roomCode].game)
    requires HasPlayer(rooms[roomCode].players, sender) && sender !in rooms[roomCode].game.answered
    requires HasPlayer(rooms[roomCode].players, other) && other != sender && other !in rooms[roomCode].game.answered
    ensures SubmitAnswer(rooms, sender, roomCode, answer, now).outcome == Done([])
  {
    var room := rooms[roomCode];
    var k, j := IndexOf(room.players, sender).value, IndexOf(room.players, other).value;
    var r := Accept(room, k, Judge(room, answer, now));
    assert r.players[j].id == other;
    assert !AllAnswered(r.players, r.game.answered);
  }

  /** ... and ends it, half a second later, once the sender was the last
      player of the room who had not answered. */
  lemma SubmitAnswerLastEnds(rooms: map<string, Room>, sender: string, roomCode: string, answer: string, now: int)
    requires roomCode in rooms && rooms[roomCode].status == Playing && QuestionOpen(rooms[roomCode].game)
    requires HasPlayer(rooms[roomCode].players, sender) && sender !in rooms[roomCode].game.answered
    requires forall j :: 0 <= j < |rooms[roomCode].players| && rooms[roomCode].players[j].id != sender ==>
      rooms[roomCode].players[j].id in rooms[roomCode].game.answered
    ensures SubmitAnswer(rooms, sender, roomCode, answer, now).outcome == Done([Timeout(EarlyEndDelayMs, EndQuestionDue, roomCode)])
  {
    var room := rooms[roomCode];
    var k := IndexOf(room.players, sender).value;
    var r := Accept(room, k, Judge(room, answer, now));
    forall j | 0 <= j < |r.players| ensures r.players[j].id in r.game.answered {
      assert r.players[j].id == room.players[j].id;
    }
  }

  // -------------------------------------------------------- handlePlayerLeave

  /** The room after player `id` leaves it, `None` once nobody is left. A
      departing host hands the role to the earliest-joined remaining player. */
  function Depart(room: Room, id: string): Option<Room> {
    match IndexOf(room.players, id)
    case None => Some(room)
    case Some(k) =>
      var rest := RemovePlayer(room.players, id);
      if |rest| == 0 then None
      else if room.players[k].isHost then
        Some(room.(players := rest[0 := rest[0].(isHost := true)], hostId := rest[0].id))
      else Some(room.(players := rest))
  }

  /** With unique ids, removing the player at `k` closes the gap at `k`. */
  lemma RemoveAt(ps: seq<Player>, k: nat)
    requires UniqueIds(ps) && k < |ps|
    ensures RemovePlayer(ps, ps[k].id) == ps[..k] + ps[k + 1..]
  {
    IndexOfUnique(ps, ps[k].id, k);
  }

  /** Leaving closes the gap the leaver leaves: the others keep their
      order, and the room goes exactly when it was the last player. */
  lemma DepartOrder(room: Room, id: string, k: nat)
    requires UniqueIds(room.players) && k < |room.players| && room.players[k].id == id
    ensures Depart(room, id).None? <==> |room.players| == 1
    ensures Depart(room, id).Some? ==>
      var after := Depart(room, id).value;
      && after == room.(players := after.players, hostId := after.hostId)
      && |after.players| == |room.players| - 1
      && (forall j :: 0 <= j < |after.players| ==>
            after.players[j] == (if k <= j then room.players[j + 1] else room.players[j]).(isHost := after.players[j].isHost))
  {
    var ps := room.players;
    var rest := ps[..k] + ps[k + 1..];
    RemoveAt(ps, k);
    IndexOfUnique(ps, id, k);
    assert forall j :: 0 <= j < |rest| ==> rest[j] == if k <= j then ps[j + 1] else ps[j];
  }

  /** A departing host is succeeded by the first remaining player in join
      order; anyone else's departure keeps the host. */
  lemma DepartHost(room: Room, id: string, k: nat)
    requires UniqueIds(room.players) && k < |room.players| && room.players[k].id == id
    ensures Depart(room, id).Some? ==>
      var after := Depart(room, id).value;
      && (room.players[k].isHost ==>
            after.hostId == after.players[0].id && after.players[0].isHost
            && after.hostId == room.players[if k == 0 then 1 else 0].id)
      && (!room.players[k].isHost ==> after.hostId == room.hostId && after.players == RemovePlayer(room.players, id))
  {
    var ps := room.players;
    RemoveAt(ps, k);
    IndexOfUnique(ps, id, k);
    var rest := ps[..k] + ps[k + 1..];
    if |rest| > 0 {
      assert rest[0] == if k == 0 then ps[1] else ps[0];
    }
  }

  /** Leaving keeps a room valid and removes the leaver. */
  lemma DepartValid(room: Room, id: string, k: nat)
    requires Valid(room) && k < |room.players| && room.players[k].id == id
    ensures Depart(room, id).Some? ==>
      var after := Depart(room, id).value;
      Valid(after) && after.code == room.code && !HasPlayer(after.players, id)
  {
    DepartOrder(room, id, k);
    DepartHost(room, id, k);
    var rest := RemovePlayer(room.players, id);
    if Depart(room, id).Some? {
      var after := Depart(room, id).value;
      assert forall j :: 0 <= j < |after.players| ==>
        after.players[j].id == rest[j].id && after.players[j].answers == rest[j].answers && after.players[j].score == rest[j].score;
      forall j | 0 <= j < |after.players| && after.players[j].isHost ensures after.players[j].id == after.hostId {
        if !room.players[k].isHost {
          assert after.players[j] in room.players;
        }
      }
    }
  }

  /** The departure facts for a room of a valid registry. */
  lemma DepartInRegistry(rooms: map<string, Room>, c: string, id: string)
    requires c in rooms && HasPlayer(rooms[c].players, id)
    ensures RegistryValid(rooms) ==>
      && (Depart(rooms[c], id).None? <==> |rooms[c].players| == 1)
      && (Depart(rooms[c], id).Some? ==>
            var after := Depart(rooms[c], id).value;
            after.code == c && Valid(after) && !HasPlayer(after.players, id))
  {
    if RegistryValid(rooms) {
      DepartOrder(rooms[c], id, IndexOf(rooms[c].players, id).value);
      DepartValid(rooms[c], id, IndexOf(rooms[c].players, id).value);
    }
  }

  /** `handlePlayerLeave` (the `leaveRoom` message). A leaver stays in the
      set of players who answered the current question. */
  function HandlePlayerLeave(rooms: map<string, Room>, sender: string, roomCode: string): (s: Step)
    ensures roomCode !in rooms || !HasPlayer(rooms[roomCode].players, sender) ==> s == Step(rooms, Ignored)
    ensures roomCode in rooms && HasPlayer(rooms[roomCode].players, sender) ==>
      && s.outcome == Done([])
      && OthersUnchanged(rooms, s.rooms, roomCode)
      && (roomCode in s.rooms <==> Depart(rooms[roomCode], sender).Some?)
      && (roomCode in s.rooms ==> s.rooms[roomCode] == Depart(rooms[roomCode], sender).value)
    ensures RegistryValid(rooms) ==> RegistryValid(s.rooms)
  {
    if roomCode !in rooms || !HasPlayer(rooms[roomCode].players, sender) then Step(rooms, Ignored)
    else
      var room := rooms[roomCode];
      DepartInRegistry(rooms, roomCode, sender);
      match Depart(room, sender)
      case None => Step(rooms - {roomCode}, Done([]))
      case Some(room') => Step(rooms[roomCode := room'], Done([]))
  }

  /** `disconnect`: the socket leaves every room it is in. Each departure
      touches only its own room, so the order `rooms.forEach` visits them
      in does not matter (see `DisconnectInAnyOrder`). */
  function Disconnect(rooms: map<string, Room>, sender: string): (r: map<string, Room>)
    ensures forall c :: c in rooms && !HasPlayer(rooms[c].players, sender) ==> c in r && r[c] == rooms[c]
    ensures forall c :: c in r ==> c in rooms
    ensures RegistryValid(rooms) ==> RegistryValid(r) && forall c :: c in r ==> !HasPlayer(r[c].players, sender)
    ensures RegistryValid(rooms) ==> forall c :: c in rooms ==> (c !in r <==> HasPlayer(rooms[c].players, sender) && |rooms[c].players| == 1)
  {
    var r := map c | c in rooms && Depart(rooms[c], sender).Some? :: Depart(rooms[c], sender).value;
    assert forall c :: c in rooms && HasPlayer(rooms[c].players, sender) ==>
      RegistryValid(rooms) ==> (c in r <==> |rooms[c].players| > 1) && (c in r ==> r[c].code == c && Valid(r[c]) && !HasPlayer(r[c].players, sender)) by {
      forall c | c in rooms && HasPlayer(rooms[c].players, sender) {
        DepartInRegistry(rooms, c, sender);
      }
    }
    r
  }

  /** `rooms.forEach` with `handlePlayerLeave` for every room the socket is
      in, visiting the codes in the order `order` lists them. */
  function DisconnectLoop(rooms: map<string, Room>, sender: string, order: seq<string>): map<string, Room>
    decreases |order|
  {
    if |order| == 0 then rooms
    else
      var c := order[0];
      var rooms' := if c in rooms && HasPlayer(rooms[c].players, sender) then HandlePlayerLeave(rooms, sender, c).rooms else rooms;
      DisconnectLoop(rooms', sender, order[1..])
  }

  /** Visiting codes that are listed once each leaves the codes not listed
      alone and applies one departure to each listed one. */
  lemma {:induction false} DisconnectLoopSpec(rooms: map<string, Room>, sender: string, order: seq<string>)
    requires forall i, j :: 0 <= i < j < |order| ==> order[i] != order[j]
    ensures var r := DisconnectLoop(rooms, sender, order);
      && (forall c :: c !in order ==> (c in r <==> c in rooms) && (c in r ==> r[c] == rooms[c]))
      && (forall c :: c in order ==>
            (c in r <==> c in rooms && Depart(rooms[c], sender).Some?) &&
            (c in r ==> r[c] == Depart(rooms[c], sender).value))
    decreases |order|
  {
    if |order| > 0 {
      var c := order[0];
      var rooms' := if c in rooms && HasPlayer(rooms[c].players, sender) then HandlePlayerLeave(rooms, sender, c).rooms else rooms;
      DisconnectLoopSpec(rooms', sender, order[1..]);
      assert forall x :: x in order[1..] ==> x != c by {
        forall x | x in order[1..] ensures x != c {
          var i :| 0 <= i < |order[1..]| && order[1..][i] == x;
          assert order[i + 1] == x;
        }
      }
      forall x | x in order ensures x == c || x in order[1..] {
        var i :| 0 <= i < |order| && order[i] == x;
        if i > 0 {
          assert order[1..][i - 1] == x;
        }
      }
    }
  }

  /** The socket's rooms can be visited in any order: the loop over every
      code once gives `Disconnect`. */
  lemma DisconnectInAnyOrder(rooms: map<string, Room>, sender: string, order: seq<string>)
    requires forall i, j :: 0 <= i < j < |order| ==> order[i] != order[j]
    requires forall c :: c in rooms ==> c in order
    ensures DisconnectLoop(rooms, sender, order) == Disconnect(rooms, sender)
  {
    DisconnectLoopSpec(rooms, sender, order);
  }

  // ---------------------------------------------------------- sendNextQuestion

  /** `sendNextQuestion`: opens the current question at `now` with an empty
      answered set and a fresh interval of `timePerQuestion` ticks. Reading a
      question past the end of the list throws, after the start has been
      stamped and the answered set emptied. */
  function SendNextQuestion(rooms: map<string, Room>, roomCode: string, now: int): (s: Step)
    ensures roomCode !in rooms || rooms[roomCode].status != Playing ==> s == Step(rooms, Ignored)
    ensures roomCode in rooms && rooms[roomCode].status == Playing ==>
      (s.outcome == Crashed <==> rooms[roomCode].game.currentIndex >= |rooms[roomCode].game.questions|)
    ensures (&& roomCode in rooms && rooms[roomCode].status == Playing
             && rooms[roomCode].game.currentIndex < |rooms[roomCode].game.questions|) ==> s.outcome.Done?
    ensures s.outcome == Crashed ==>
      var room := rooms[roomCode];
      s.rooms == rooms[roomCode := room.(game := room.game.(questionStart := Some(now), answered := {}))]
    ensures s.outcome.Done? ==>
      && s.outcome == Done([])
      && s.rooms.Keys == rooms.Keys
      && OthersUnchanged(rooms, s.rooms, roomCode)
      && var before, after := rooms[roomCode], s.rooms[roomCode];
      && QuestionOpen(after.game)
      && after.game.questionStart == Some(now) && after.game.answered == {}
      && after.game.timer == Some(before.settings.timePerQuestion)
      && after == before.(game := before.game.(questionStart := after.game.questionStart, answered := {}, timer := after.game.timer))
    ensures RegistryValid(rooms) ==> RegistryValid(s.rooms)
  {
    if roomCode !in rooms || rooms[roomCode].status != Playing then Step(rooms, Ignored)
    else
      var room := rooms[roomCode];
      if room.game.currentIndex >= |room.game.questions| then
        Step(rooms[roomCode := room.(game := room.game.(questionStart := Some(now), answered := {}))], Crashed)
      else
        var game := room.game.(questionStart := Some(now), answered := {}, timer := Some(room.settings.timePerQuestion));
        Step(rooms[roomCode := room.(game := game)], Done([]))
  }

  // --------------------------------------------------------------- endQuestion

  /** The record of a player who let the time run out. */
  function NoAnswer(index: int, q: Question, timePerQuestion: Seconds): AnswerRecord {
    AnswerRecord(index, q.prompt, NoAnswerText, q.answer, false, 0, timePerQuestion * 1000)
  }

  /** Appends `rec` to the log of every player outside `answered`. */
  function MarkUnanswered(ps: seq<Player>, answered: set<string>, rec: AnswerRecord): (r: seq<Player>)
    ensures |r| == |ps|
    ensures forall k :: 0 <= k < |ps| && ps[k].id in answered ==> r[k] == ps[k]
    ensures forall k :: 0 <= k < |ps| && ps[k].id !in answered ==> r[k] == ps[k].(answers := ps[k].answers + [rec])
  {
    seq(|ps|, k requires 0 <= k < |ps| => if ps[k].id in answered then ps[k] else ps[k].(answers := ps[k].answers + [rec]))
  }

  /** Logging a 0-point record keeps a room valid. */
  lemma MarkUnansweredValid(room: Room, rec: AnswerRecord)
    requires rec.points == 0
    ensures Valid(room) ==> Valid(room.(players := MarkUnanswered(room.players, room.game.answered, rec)))
  {
    var players := MarkUnanswered(room.players, room.game.answered, rec);
    forall k | 0 <= k < |players| && room.players[k].id !in room.game.answered
      ensures TotalPoints(players[k].answers) == TotalPoints(room.players[k].answers)
    {
      TotalPointsAppend(room.players[k].answers, rec);
    }
  }

  /** `endQuestion`: every player who has not answered gets one 0-point,
      incorrect record for the current question, no score changes, the index
      moves on by one, and the game either ends or sends the next question
      2 s later. It does not look at the status or stop the interval. */
  function EndQuestion(rooms: map<string, Room>, roomCode: string): (s: Step)
    ensures roomCode !in rooms ==> s == Step(rooms, Ignored)
    ensures roomCode in rooms ==> (s.outcome == Crashed <==> rooms[roomCode].game.currentIndex >= |rooms[roomCode].game.questions|)
    ensures roomCode in rooms && rooms[roomCode].game.currentIndex < |rooms[roomCode].game.questions| ==> s.outcome.Done?
    ensures s.outcome.Done? ==>
      && s.rooms.Keys == rooms.Keys
      && OthersUnchanged(rooms, s.rooms, roomCode)
      && var before, after := rooms[roomCode], s.rooms[roomCode];
      && var i := before.game.currentIndex;
      && i < |before.game.questions|
      && after.game == before.game.(currentIndex := i + 1)
      && after == before.(players := after.players, game := after.game)
      && |after.players| == |before.players|
      && (forall k :: 0 <= k < |after.players| ==>
            && after.players[k] == before.players[k].(answers := after.players[k].answers)
            && (before.players[k].id in before.game.answered ==> after.players[k] == before.players[k])
            && (before.players[k].id !in before.game.answered ==>
                  after.players[k].answers == before.players[k].answers + [NoAnswer(i, before.game.questions[i], before.settings.timePerQuestion)]))
      && s.outcome == Done([Timeout(BetweenQuestionsMs, if i + 1 >= |before.game.questions| then EndGameDue else NextQuestionDue, roomCode)])
    ensures RegistryValid(rooms) ==> RegistryValid(s.rooms)
  {
    if roomCode !in rooms then Step(rooms, Ignored)
    else
      var room := rooms[roomCode];
      var i := room.game.currentIndex;
      if i >= |room.game.questions| then Step(rooms, Crashed)
      else
        var rec := NoAnswer(i, room.game.questions[i], room.settings.timePerQuestion);
        var players := MarkUnanswered(room.players, room.game.answered, rec);
        MarkUnansweredValid(room, rec);
        var next := if i + 1 >= |room.game.questions| then EndGameDue else NextQuestionDue;
        Step(rooms[roomCode := room.(players := players, game := room.game.(currentIndex := i + 1))],
             Done([Timeout(BetweenQuestionsMs, next, roomCode)]))
  }

  /** When everyone who answered holds a record for the current question,
      after `endQuestion` every player holds exactly one more record than
      before at most, and the last one is for that question. */
  lemma EndQuestionRecordsEveryone(rooms: map<string, Room>, roomCode: string)
    requires roomCode in rooms
    requires var g := rooms[roomCode].game; g.currentIndex < |g.questions|
    requires var room := rooms[roomCode];
      forall k :: 0 <= k < |room.players| && room.players[k].id in room.game.answered ==>
        |room.players[k].answers| > 0 && room.players[k].answers[|room.players[k].answers| - 1].questionIndex == room.game.currentIndex
    ensures var before, after := rooms[roomCode], EndQuestion(rooms, roomCode).rooms[roomCode];
      forall k :: 0 <= k < |after.players| ==>
        && |after.players[k].answers| > 0
        && after.players[k].answers[|after.players[k].answers| - 1].questionIndex == before.game.currentIndex
        && |before.players[k].answers| <= |after.players[k].answers| <= |before.players[k].answers| + 1
        && after.players[k].score == before.players[k].score
  {
  }

  // ------------------------------------------------------ interval and endGame

  /** One tick of the question interval: the countdown drops by one and, at
      zero, the interval is cleared and the question ends. */
  function Tick(rooms: map<string, Room>, roomCode: string): (s: Step)
    ensures roomCode !in rooms || rooms[roomCode].game.timer.None? ==> s == Step(rooms, Ignored)
    ensures roomCode in rooms && rooms[roomCode].game.timer.Some? ==>
      var room := rooms[roomCode];
      var t := room.game.timer.value;
      && (t > 1 ==> s == Step(rooms[roomCode := room.(game := room.game.(timer := Some(t - 1)))], Done([])))
      && (t <= 1 ==> s == EndQuestion(rooms[roomCode := room.(game := room.game.(timer := None))], roomCode))
    ensures RegistryValid(rooms) ==> RegistryValid(s.rooms)
  {
    if roomCode !in rooms || rooms[roomCode].game.timer.None? then Step(rooms, Ignored)
    else
      var room := rooms[roomCode];
      var t := room.game.timer.value - 1;
      if t <= 0 then EndQuestion(rooms[roomCode := room.(game := room.game.(timer := None))], roomCode)
      else Step(rooms[roomCode := room.(game := room.game.(timer := Some(t)))], Done([]))
  }

  /** A question sent with `n` seconds on the clock ends on the `n`-th tick
      and not before: each earlier tick only counts down. */
  lemma TicksCountDown(rooms: map<string, Room>, roomCode: string, n: nat)
    requires roomCode in rooms && rooms[roomCode].game.timer == Some(n)
    ensures n > 1 ==> var s := Tick(rooms, roomCode);
      s.outcome == Done([]) && s.rooms[roomCode].game.timer == Some(n - 1)
    ensures n <= 1 ==> var s := Tick(rooms, roomCode);
      s.outcome != Ignored && (s.outcome.Done? ==> s.rooms[roomCode].game.timer.None? && s.rooms[roomCode].game.currentIndex == rooms[roomCode].game.currentIndex + 1)
  {
  }

  /** `endGame`: the room is finished, whatever its status, and is deleted
      five minutes later. */
  function EndGame(rooms: map<string, Room>, roomCode: string): (s: Step)
    ensures roomCode !in rooms ==> s == Step(rooms, Ignored)
    ensures roomCode in rooms ==>
      && s.outcome == Done([Timeout(CleanupDelayMs, CleanupDue, roomCode)])
      && s.rooms == rooms[roomCode := rooms[roomCode].(status := Finished)]
    ensures RegistryValid(rooms) ==> RegistryValid(s.rooms)
  {
    if roomCode !in rooms then Step(rooms, Ignored)
    else Step(rooms[roomCode := rooms[roomCode].(status := Finished)], Done([Timeout(CleanupDelayMs, CleanupDue, roomCode)]))
  }

  /** The cleanup timer: whatever room holds the code by then is deleted. */
  function Cleanup(rooms: map<string, Room>, roomCode: string): (s: Step)
    ensures roomCode !in rooms ==> s == Step(rooms, Ignored)
    ensures roomCode in rooms ==> s == Step(rooms - {roomCode}, Done([]))
    ensures s.rooms.Keys == rooms.Keys - {roomCode}
  {
    if roomCode !in rooms then Step(rooms, Ignored)
    else Step(rooms - {roomCode}, Done([]))
  }
}

=== FILE: scoring.dfy ===
/** `calculatePoints` of server.js: 100 points for a correct answer plus a
    speed bonus of up to 50 that decays linearly with the response time. */
module Scoring {

  const BasePoints := 100
  const MaxBonus := 50

  function Min(x: int, y: int): int {
    if x <= y then x else y
  }

  /** `Math.round(maxBonus * (1 - Math.min(responseTimeMs / timeLimitMs, 1)))`
      in integer arithmetic: with `m = min(rt, tl)` the bonus is
      `floor(50 * (tl - m) / tl + 1/2)`. Negative response times are not
      clamped, as in the source. */
  function SpeedBonus(responseTimeMs: int, timeLimitMs: int): int
    requires timeLimitMs > 0
  {
    (2 * MaxBonus * (timeLimitMs - Min(responseTimeMs, timeLimitMs)) + timeLimitMs) / (2 * timeLimitMs)
  }

  /** Cancelling a positive factor from a strict inequality. */
  lemma CancelPositive(d: int, k: int, c: int)
    requires d > 0 && d * k < d * c
    ensures k < c
  {}

  /** `x / d` is the unique `q` with `q * d <= x < (q + 1) * d`. */
  lemma DivIsFloor(x: int, d: int, q: int)
    requires d > 0 && q * d <= x < (q + 1) * d
    ensures x / d == q
  {
    var r := x / d;
    assert d * r <= x < d * r + d;
    assert d * r < d * (q + 1);
    CancelPositive(d, r, q + 1);
    assert d * q < d * (r + 1);
    CancelPositive(d, q, r + 1);
  }

  /** The bonus is the nearest integer to `50 * (tl - m) / tl`, halves
      rounded up. */
  lemma BonusRounds(responseTimeMs: int, timeLimitMs: int)
    requires timeLimitMs > 0
    ensures var b, tl, m := SpeedBonus(responseTimeMs, timeLimitMs), timeLimitMs, Min(responseTimeMs, timeLimitMs);
      2 * b * tl - tl <= 2 * MaxBonus * (tl - m) < 2 * b * tl + tl
  {
    var tl, m := timeLimitMs, Min(responseTimeMs, timeLimitMs);
    var x := 2 * MaxBonus * (tl - m) + tl;
    var b := x / (2 * tl);
    assert (2 * tl) * b <= x < (2 * tl) * b + 2 * tl;
  }

  /** The bonus is never negative and, for a non-negative response time,
      never above 50. */
  lemma BonusBounds(responseTimeMs: int, timeLimitMs: int)
    requires timeLimitMs > 0
    ensures SpeedBonus(responseTimeMs, timeLimitMs) >= 0
    ensures responseTimeMs >= 0 ==> SpeedBonus(responseTimeMs, timeLimitMs) <= MaxBonus
  {
    var tl, m := timeLimitMs, Min(responseTimeMs, timeLimitMs);
    var x, d := 2 * MaxBonus * (tl - m) + tl, 2 * tl;
    var b := x / d;
    assert d * b <= x < d * b + d;
    assert d * 0 < d * (b + 1);
    CancelPositive(d, 0, b + 1);
    if 0 <= responseTimeMs {
      assert x < d * (MaxBonus + 1);
      CancelPositive(d, b, MaxBonus + 1);
    }
  }

  /** An instant answer earns the whole bonus, one at or past the time limit
      earns none. */
  lemma BonusEnds(responseTimeMs: int, timeLimitMs: int)
    requires timeLimitMs > 0
    ensures responseTimeMs >= timeLimitMs ==> SpeedBonus(responseTimeMs, timeLimitMs) == 0
    ensures responseTimeMs == 0 ==> SpeedBonus(responseTimeMs, timeLimitMs) == MaxBonus
  {
    var tl := timeLimitMs;
    if responseTimeMs >= tl {
      DivIsFloor(tl, 2 * tl, 0);
    }
    if responseTimeMs == 0 {
      DivIsFloor(2 * MaxBonus * tl + tl, 2 * tl, MaxBonus);
    }
  }

  /** `calculatePoints(isCorrect, responseTimeMs, timeLimitMs)`. */
  function CalculatePoints(isCorrect: bool, responseTimeMs: int, timeLimitMs: int): (points: int)
    requires timeLimitMs > 0
    ensures !isCorrect ==> points == 0
    ensures isCorrect ==> points >= BasePoints
    ensures isCorrect && responseTimeMs >= 0 ==> BasePoints <= points <= BasePoints + MaxBonus
    ensures isCorrect && responseTimeMs >= timeLimitMs ==> points == BasePoints
    ensures isCorrect && responseTimeMs == 0 ==> points == BasePoints + MaxBonus
    // the bonus is 50 * (tl - m) / tl rounded to the nearest integer, halves up
    ensures isCorrect ==>
      var b, m := points - BasePoints, Min(responseTimeMs, timeLimitMs);
      2 * b * timeLimitMs - timeLimitMs <= 2 * MaxBonus * (timeLimitMs - m) < 2 * b * timeLimitMs + timeLimitMs
  {
    if !isCorrect then 0
    else
      BonusRounds(responseTimeMs, timeLimitMs);
      BonusBounds(responseTimeMs, timeLimitMs);
      BonusEnds(responseTimeMs, timeLimitMs);
      BasePoints + SpeedBonus(responseTimeMs, timeLimitMs)
  }

  /** A faster correct answer never scores less than a slower one. */
  lemma PointsNonIncreasing(rt1: int, rt2: int, timeLimitMs: int)
    requires timeLimitMs > 0 && rt1 <= rt2
    ensures CalculatePoints(true, rt1, timeLimitMs) >= CalculatePoints(true, rt2, timeLimitMs)
  {
    var tl := timeLimitMs;
    var x1 := 2 * MaxBonus * (tl - Min(rt1, tl)) + tl;
    var x2 := 2 * MaxBonus * (tl - Min(rt2, tl)) + tl;
    var d := 2 * tl;
    assert x2 <= x1;
    var q1, q2 := x1 / d, x2 / d;
    assert d * q2 <= x2 <= x1 < d * (q1 + 1);
    CancelPositive(d, q2, q1 + 1);
  }

  /** Answering in 2 s out of 10 s earns 100 + round(50 * 0.8) = 140 points. */
  lemma TwoSecondsOfTen()
    ensures CalculatePoints(true, 2000, 10000) == 140
  {
    DivIsFloor(810000, 20000, 40);
  }
}

=== FILE: server.dfy ===
/** The `io.on('connection')` block of server.js and the timers it starts,
    as one event type: each socket message and each timer callback is an
    event. `ApplyAsWritten` runs the handlers as server.js writes them;
    `Apply` is the corrected server, which runs the corrected `submitAnswer`
    and `startGame` of module `Rooms` instead. */
module Server {
  import opened Wrappers
  import opened Text
  import opened RoomModel
  import opened RoomCode
  import opened Rooms
  import opened Findings

  datatype Event =
    | CreateRoomMsg(sender: string, hostName: string, themes: Option<seq<string>>, questionCount: Option<int>, draws: seq<Draw>)
    | JoinRoomMsg(sender: string, roomCode: string, playerName: string)
    | UpdateSettingsMsg(sender: string, roomCode: string, patch: SettingsPatch)
    | StartGameMsg(sender: string, roomCode: string, questions: seq<Question>)
    | SubmitAnswerMsg(sender: string, roomCode: string, answer: string, now: int)
    | LeaveRoomMsg(sender: string, roomCode: string)
    | DisconnectMsg(sender: string)
    | NextQuestionFired(roomCode: string, now: int)
    | TickFired(roomCode: string)
    | EndQuestionFired(roomCode: string)
    | EndGameFired(roomCode: string)
    | CleanupFired(roomCode: string)

  /** Runs the corrected handler of `e`. A room code is drawn for `createRoom` from the
      draws the event carries; when they run out before a free code comes up
      the message is dropped. */
  function Apply(rooms: map<string, Room>, e: Event): Step {
    match e
    case CreateRoomMsg(sender, hostName, themes, questionCount, draws) =>
      (match GenerateRoomCode(rooms.Keys, draws)
       case None => Step(rooms, Ignored)
       case Some(code) => CreateRoom(rooms, sender, hostName, themes, questionCount, code))
    case JoinRoomMsg(sender, roomCode, playerName) => JoinRoom(rooms, sender, roomCode, playerName)
    case UpdateSettingsMsg(sender, roomCode, patch) => UpdateSettings(rooms, sender, roomCode, patch)
    case StartGameMsg(sender, roomCode, questions) => StartGame(rooms, sender, roomCode, questions)
    case SubmitAnswerMsg(sender, roomCode, answer, now) => SubmitAnswer(rooms, sender, roomCode, answer, now)
    case LeaveRoomMsg(sender, roomCode) => HandlePlayerLeave(rooms, sender, roomCode)
    case DisconnectMsg(sender) => Step(Disconnect(rooms, sender), Done([]))
    case NextQuestionFired(roomCode, now) => SendNextQuestion(rooms, roomCode, now)
    case TickFired(roomCode) => Tick(rooms, roomCode)
    case EndQuestionFired(roomCode) => EndQuestion(rooms, roomCode)
    case EndGameFired(roomCode) => EndGame(rooms, roomCode)
    case CleanupFired(roomCode) => Cleanup(rooms, roomCode)
  }

  /** Every handler keeps the registry valid: rooms filed under their own
      codes, never empty, unique socket ids, host flags naming the host,
      scores equal to the logged points, and a question index within the
      list. */
  lemma ApplyKeepsValid(rooms: map<string, Room>, e: Event)
    requires RegistryValid(rooms)
    ensures RegistryValid(Apply(rooms, e).rooms)
  {
    match e
    case SubmitAnswerMsg(sender, roomCode, answer, now) =>
      SubmitAnswerKeepsValid(rooms, sender, roomCode, answer, now);
    case _ =>
  }

  /** Running events one after the other. */
  function Run(rooms: map<string, Room>, events: seq<Event>): map<string, Room>
    decreases |events|
  {
    if |events| == 0 then rooms else Run(Apply(rooms, events[0]).rooms, events[1..])
  }

  /** Validity holds after any sequence of events. */
  lemma {:induction false} RunKeepsValid(rooms: map<string, Room>, events: seq<Event>)
    requires RegistryValid(rooms)
    ensures RegistryValid(Run(rooms, events))
    decreases |events|
  {
    if |events| > 0 {
      ApplyKeepsValid(rooms, events[0]);
      RunKeepsValid(Apply(rooms, events[0]).rooms, events[1..]);
    }
  }

  /** The code of the room an event addresses; `createRoom` addresses the
      code it draws, `joinRoom` the upper-cased code. */
  function Target(rooms: map<string, Room>, e: Event): Option<string> {
    match e
    case CreateRoomMsg(_, _, _, _, draws) => GenerateRoomCode(rooms.Keys, draws)
    case JoinRoomMsg(_, roomCode, _) => Some(ToUpper(roomCode))
    case UpdateSettingsMsg(_, roomCode, _) => Some(roomCode)
    case StartGameMsg(_, roomCode, _) => Some(roomCode)
    case SubmitAnswerMsg(_, roomCode, _, _) => Some(roomCode)
    case LeaveRoomMsg(_, roomCode) => Some(roomCode)
    case DisconnectMsg(_) => None
    case NextQuestionFired(roomCode, _) => Some(roomCode)
    case TickFired(roomCode) => Some(roomCode)
    case EndQuestionFired(roomCode) => Some(roomCode)
    case EndGameFired(roomCode) => Some(roomCode)
    case CleanupFired(roomCode) => Some(roomCode)
  }

  /** Rooms do not interfere: an event for one room leaves every other room
      exactly as it was. */
  lemma ApplyTouchesOnlyTarget(rooms: map<string, Room>, e: Event)
    requires Target(rooms, e).Some?
    ensures OthersUnchanged(rooms, Apply(rooms, e).rooms, Target(rooms, e).value)
  {
  }

  /** A disconnect touches only the rooms the socket is in. */
  lemma DisconnectTouchesOnlyOwnRooms(rooms: map<string, Room>, sender: string, c: string)
    requires c in rooms && !HasPlayer(rooms[c].players, sender)
    ensures var r := Apply(rooms, DisconnectMsg(sender)).rooms;
      c in r && r[c] == rooms[c]
  {
  }

  /** In the corrected server, the only handlers that can throw are the timer callbacks that read the
      current question (`sendNextQuestion`, and `endQuestion` whether fired
      on its own or by the last tick), and only when the index is past the
      end of the list; every socket message is handled without a crash. */
  lemma CrashesOnlyPastEnd(rooms: map<string, Room>, e: Event)
    ensures Apply(rooms, e).outcome == Crashed <==>
      && (e.NextQuestionFired? || e.EndQuestionFired? || e.TickFired?)
      && e.roomCode in rooms
      && (e.NextQuestionFired? ==> rooms[e.roomCode].status == Playing)
      && (e.TickFired? ==> rooms[e.roomCode].game.timer.Some? && rooms[e.roomCode].game.timer.value <= 1)
      && rooms[e.roomCode].game.currentIndex >= |rooms[e.roomCode].game.questions|
  {
  }

  // ------------------------------------------------------- the code as written

  /** Runs the handler of `e` as server.js writes it: `startGame` and
      `submitAnswer` without the guards the corrected server adds. */
  function ApplyAsWritten(rooms: map<string, Room>, e: Event): Step {
    match e
    case StartGameMsg(sender, roomCode, questions) => StartGameAsWritten(rooms, sender, roomCode, questions)
    case SubmitAnswerMsg(sender, roomCode, answer, now) => SubmitAnswerAsWritten(rooms, sender, roomCode, answer, now)
    case _ => Apply(rooms, e)
  }

  /** The two servers differ only on a start without questions and on an
      answer while no question is open or after a player who answered has
      left. */
  lemma ApplyAsWrittenAgrees(rooms: map<string, Room>, e: Event)
    requires RegistryValid(rooms)
    requires e.StartGameMsg? ==> |e.questions| > 0
    requires e.SubmitAnswerMsg? && e.roomCode in rooms ==>
      QuestionOpen(rooms[e.roomCode].game) && rooms[e.roomCode].game.answered <= Ids(rooms[e.roomCode].players)
    ensures ApplyAsWritten(rooms, e) == Apply(rooms, e)
  {
    if e.SubmitAnswerMsg? && e.roomCode in rooms {
      AsWrittenAgreesWhileOpen(rooms, e.sender, e.roomCode, e.answer, e.now);
    }
  }

  /** Every handler as written keeps the registry valid. */
  lemma ApplyAsWrittenKeepsValid(rooms: map<string, Room>, e: Event)
    requires RegistryValid(rooms)
    ensures RegistryValid(ApplyAsWritten(rooms, e).rooms)
  {
    match e
    case SubmitAnswerMsg(sender, roomCode, answer, now) =>
      SubmitAnswerAsWrittenKeepsValid(rooms, sender, roomCode, answer, now);
    case _ =>
      ApplyKeepsValid(rooms, e);
  }

  /** Running events through the handlers as written. */
  function RunAsWritten(rooms: map<string, Room>, events: seq<Event>): map<string, Room>
    decreases |events|
  {
    if |events| == 0 then rooms else RunAsWritten(ApplyAsWritten(rooms, events[0]).rooms, events[1..])
  }

  /** Validity holds after any sequence of events run as written. */
  lemma {:induction false} RunAsWrittenKeepsValid(rooms: map<string, Room>, events: seq<Event>)
    requires RegistryValid(rooms)
    ensures RegistryValid(RunAsWritten(rooms, events))
    decreases |events|
  {
    if |events| > 0 {
      ApplyAsWrittenKeepsValid(rooms, events[0]);
      RunAsWrittenKeepsValid(ApplyAsWritten(rooms, events[0]).rooms, events[1..]);
    }
  }

  /** Rooms do not interfere in the code as written either. */
  lemma ApplyAsWrittenTouchesOnlyTarget(rooms: map<string, Room>, e: Event)
    requires Target(rooms, e).Some?
    ensures OthersUnchanged(rooms, ApplyAsWritten(rooms, e).rooms, Target(rooms, e).value)
  {
    ApplyTouchesOnlyTarget(rooms, e);
  }

  /** In server.js the handlers that throw are `sendNextQuestion`,
      `endQuestion` (on its own or by the last tick) and `submitAnswer` from
      a player who has not answered, each only with the index past the end
      of the question list. */
  lemma AsWrittenCrashesOnlyPastEnd(rooms: map<string, Room>, e: Event)
    ensures ApplyAsWritten(rooms, e).outcome == Crashed <==>
      && (e.NextQuestionFired? || e.EndQuestionFired? || e.TickFired? || e.SubmitAnswerMsg?)
      && e.roomCode in rooms
      && (e.NextQuestionFired? || e.SubmitAnswerMsg? ==> rooms[e.roomCode].status == Playing)
      && (e.TickFired? ==> rooms[e.roomCode].game.timer.Some? && rooms[e.roomCode].game.timer.value <= 1)
      && (e.SubmitAnswerMsg? ==> HasPlayer(rooms[e.roomCode].players, e.sender) && e.sender !in rooms[e.roomCode].game.answered)
      && rooms[e.roomCode].game.currentIndex >= |rooms[e.roomCode].game.questions|
  {
    CrashesOnlyPastEnd(rooms, e);
  }
}

=== FILE: text.dfy ===
/** The few JavaScript string primitives the server relies on: the `\s`
    character class, `String.prototype.trim` and `toUpperCase` on ASCII. */
module Text {

  /** JavaScript's `\s`: the WhiteSpace and LineTerminator code points of
      ECMA-262 (section 12.2 and 12.3). `trim` removes exactly these. */
  predicate IsJsSpace(c: char) {
    || c == ' ' || c == '\t' || c == '\n' || c == '\U{000B}' || c == '\U{000C}' || c == '\r'
    || c == '\U{00A0}' || c == '\U{1680}' || ('\U{2000}' <= c <= '\U{200A}')
    || c == '\U{2028}' || c == '\U{2029}' || c == '\U{202F}' || c == '\U{205F}'
    || c == '\U{3000}' || c == '\U{FEFF}'
  }

  /** JavaScript's `\d` without the `u` flag: the ASCII digits only. */
  predicate IsAsciiDigit(c: char) {
    '0' <= c <= '9'
  }

  /** Leading JavaScript whitespace removed (`trimStart`). */
  function TrimStart(s: string): (r: string)
    ensures |r| <= |s| && r == s[|s| - |r|..]
    ensures forall k :: 0 <= k < |s| - |r| ==> IsJsSpace(s[k])
    ensures |r| > 0 ==> !IsJsSpace(r[0])
  {
    if |s| > 0 && IsJsSpace(s[0]) then TrimStart(s[1..]) else s
  }

  /** Trailing JavaScript whitespace removed (`trimEnd`). */
  function TrimEnd(s: string): (r: string)
    ensures |r| <= |s| && r == s[..|r|]
    ensures forall k :: |r| <= k < |s| ==> IsJsSpace(s[k])
    ensures |r| > 0 ==> !IsJsSpace(r[|r| - 1])
  {
    if |s| > 0 && IsJsSpace(s[|s| - 1]) then TrimEnd(s[..|s| - 1]) else s
  }

  /** Number of leading whitespace code points `trim` drops. */
  function LeadingSpaces(s: string): nat
  {
    |s| - |TrimStart(s)|
  }

  /** `String.prototype.trim`: the infix of `s` starting after its leading
      whitespace that neither starts nor ends with whitespace, everything
      outside it being whitespace. */
  function Trim(s: string): (r: string)
    ensures LeadingSpaces(s) + |r| <= |s|
    ensures r == s[LeadingSpaces(s)..LeadingSpaces(s) + |r|]
    ensures forall k :: 0 <= k < LeadingSpaces(s) ==> IsJsSpace(s[k])
    ensures forall k :: LeadingSpaces(s) + |r| <= k < |s| ==> IsJsSpace(s[k])
    ensures |r| > 0 ==> !IsJsSpace(r[0]) && !IsJsSpace(r[|r| - 1])
  {
    TrimEnd(TrimStart(s))
  }

  /** `trimStart` stops at the first code point that is not whitespace. */
  lemma {:induction false} TrimStartSkipsRun(w: string, y: string)
    requires forall i :: 0 <= i < |w| ==> IsJsSpace(w[i])
    requires |y| > 0 ==> !IsJsSpace(y[0])
    ensures TrimStart(w + y) == y
    decreases |w|
  {
    if |w| == 0 {
      assert w + y == y;
    } else {
      assert (w + y)[1..] == w[1..] + y;
      TrimStartSkipsRun(w[1..], y);
    }
  }

  /** `trimStart` keeps a last code point that is not whitespace. */
  lemma TrimStartKeepsLast(s: string)
    requires |s| > 0 && !IsJsSpace(s[|s| - 1])
    ensures var r := TrimStart(s); |r| > 0 && r[|r| - 1] == s[|s| - 1]
  {
  }

  /** Once `a` holds a code point that is not whitespace, what follows `a`
      is not trimmed. */
  lemma {:induction false} TrimStartAppend(a: string, b: string)
    requires |TrimStart(a)| > 0
    ensures TrimStart(a + b) == TrimStart(a) + b
    decreases |a|
  {
    assert (a + b)[0] == a[0];
    if IsJsSpace(a[0]) {
      assert (a + b)[1..] == a[1..] + b;
      TrimStartAppend(a[1..], b);
    }
  }

  /** `toUpperCase` on ASCII letters; other code points are left alone. */
  function UpperChar(c: char): (u: char)
    ensures 'a' <= c <= 'z' ==> u as int == c as int - 32
    ensures !('a' <= c <= 'z') ==> u == c
  {
    if 'a' <= c <= 'z' then (c as int - 32) as char else c
  }

  function ToUpper(s: string): (r: string)
    ensures |r| == |s|
    ensures forall i :: 0 <= i < |s| ==> r[i] == UpperChar(s[i])
  {
    seq(|s|, i requires 0 <= i < |s| => UpperChar(s[i]))
  }

}

=== FILE: wrappers.dfy ===
/** Failure-compatible optional values, used wherever the server reads a
    JavaScript value that may be `null` or `undefined`. */
module Wrappers {

  datatype Option<+T> = None | Some(value: T) {

    /** The wrapped value, or `default` when there is none (JavaScript's `x ?? d`). */
    function GetOr(default: T): T {
      match this
      case Some(v) => v
      case None => default
    }
  }
}
